=== FILE: README.md ===
# Auroranet event registration: a Dafny model

Auroranet is an event-registration web application. Administrators create
time-slotted events with a seat capacity. Members reserve seats and cancel
them. Administrators manage participants, check-ins, payments and user
accounts. This project models its core in Dafny and proves properties of
that model:

- **The store** (`reservation_service.dfy`, `event_service.dfy`). The two
  document collections become two finite maps, events and reservations.
  Every service call becomes one pure transition that returns `Ok` or
  `Err`.
- **Registration and cancellation** (`reservation_service.dfy`).
  Registration checks duplicates, then availability, then existence.
  Cancellation checks existence, status, event and the 24-hour notice. Both
  then reconcile the event's registered count through the count update.
- **Count and status reconciliation, event CRUD and the event queries**
  (`event_service.dfy`).
- **Pure predicates of the two document models** (`event_model.dfy`,
  `reservation_model.dfy`): time slots, fullness, the event-date window,
  the cancellation rule, check-in/payment predicates and labels.
- **The store invariant** (`consistency.dfy`). Every event's count equals
  its number of confirmed reservations. No event is over capacity. A user
  holds at most one confirmed reservation per event. The file proves that
  registration, cancellation, event creation and deletion keep this
  invariant. It also proves that an administrator's capacity edit can break
  it.
- **The read-side screens.** `event_participants.dfy` covers the
  administrator's participants page. `user_events.dfy` covers the member's
  events page. `user_management.dfy` covers the user list.
- **Account provisioning** (`provisioning.dfy`): the ordered validation of
  the two server endpoints, including the E.164 phone-number format of
  ITU-T Recommendation E.164 (a plus sign and at most fifteen digits).
- **Shared helpers.** `sequences.dfy` models `Array.prototype.filter` and
  stable sorting. `text.dfy` models `toLowerCase`, `includes` and `trim`.
  `instants.dfy` holds millisecond and day arithmetic. `wrappers.dfy`
  holds `Option` and `Result`.

Instants are integer milliseconds and days are UTC days of 86,400,000 ms.
Query results are modelled over a listing of the collection: the matching
documents, stably sorted by the query's order key.

Behaviour of the code that a reader might not expect, kept as written:

- The count update sets FULL or SCHEDULED unconditionally, overwriting
  CANCELLED and COMPLETED (`RecountIgnoresPreviousStatus`).
- Registration for a missing event fails with the "full or not available"
  error. The availability check runs before the existence check and
  treats a missing event as unavailable, so the later not-found branch is
  unreachable; the model keeps it.
- Registration does not write a payment status, although the comment on
  the document type (auroranet/src/app/models/reservation.model.ts:72)
  calls UNPAID the default. The model's `paymentStatus` is
  `Option<PaymentStatus>`, and a new reservation has `None`.
- The administrator's "remove participant" action calls the ordinary
  cancellation, so the 24-hour notice applies to it as well
  (`RemovalWithinNoticeRefused`).
- `getEvents` ignores the `limit` option (`LimitIsIgnored`).

## Model

| member | source | states |
|---|---|---|
| ReservationModel.CancellationBoundary | auroranet/src/app/models/reservation.model.ts:105-115 | a confirmed reservation can be cancelled exactly 24 hours (86,400,000 ms) before its event, and not 1 ms later |
| ReservationModel.CancellationMinuteExamples | auroranet/src/app/models/reservation.model.ts:110-114 | cancelling 23 h 59 min before the event is refused; 24 h 1 min before is allowed |
| ReservationModel.OnlyConfirmedCancellable | auroranet/src/app/models/reservation.model.ts:105-108 | a reservation that is not confirmed is never cancellable, whatever the times |
| ReservationModel.CancellableEarlier | auroranet/src/app/models/reservation.model.ts:110-114 | a reservation cancellable at some moment is cancellable at every earlier moment |
| ReservationModel.PaidIndependentOfRecord | auroranet/src/app/models/reservation.model.ts:120-129 | "paid" and "checked in" do not depend on whether a payment record is present |
| ReservationModel.PaymentStatusLabelInjective | auroranet/src/app/models/reservation.model.ts:134-147 | every payment status has a non-empty label and distinct statuses have distinct labels |
| ReservationModel.PaymentMethodLabelInjective | auroranet/src/app/models/reservation.model.ts:152-169 | every payment method has a non-empty label and distinct methods have distinct labels |
| EventModel.TimeSlotNameInjective | auroranet/src/app/models/event.model.ts:5-8 | the two stored slot names are distinct |
| EventModel.TimeSlotHours | auroranet/src/app/models/event.model.ts:74-76 | each slot is a span of exactly three hours inside one day |
| EventModel.SlotsDoNotOverlap | auroranet/src/app/models/event.model.ts:74-76 | the morning slot ends before the afternoon slot begins |
| EventModel.DisplayShowsSlotHours | auroranet/src/app/models/event.model.ts:67-76 | the display label of each slot contains the "HH:00 - HH:00" text of the hours that slot occupies |
| EventModel.ValidEventDateRange | auroranet/src/app/models/event.model.ts:111-119 | the lower bound is the start of today: a day boundary no later than now and less than a day before it |
| EventModel.DateRangeMatchesValidity | auroranet/src/app/models/event.model.ts:95-119 | a date is valid exactly when it lies between the range's bounds, both ends inclusive |
| EventModel.DateValidityIsPerDay | auroranet/src/app/models/event.model.ts:95-106 | validity depends only on the calendar day; the current instant is itself valid |
| EventModel.EarlierTodayIsValid | auroranet/src/app/models/event.model.ts:95-106 | an instant earlier today is still a valid event date |
| EventService.CreateEvent | auroranet/src/app/services/event.service.ts:60-83 | only the new key is added; the new event takes the supplied fields, empty description and location when absent, duration 3, count 0, SCHEDULED, the creator and both timestamps |
| EventService.NewEventFullIffNoCapacity | auroranet/src/app/services/event.service.ts:60-83 | a new event is full exactly when its capacity is not positive |
| EventService.UpdateRegisteredCount | auroranet/src/app/services/event.service.ts:237-264 | fails with not-found exactly when the event is missing; otherwise only that event changes, keeps its definition, takes the count and time, and is FULL exactly when full, SCHEDULED otherwise |
| EventService.RecountIgnoresPreviousStatus | auroranet/src/app/services/event.service.ts:246-256 | the result of a count update does not depend on the event's previous status, so CANCELLED and COMPLETED are overwritten |
| EventService.UpdateEvent | auroranet/src/app/services/event.service.ts:215-228 | fails exactly when the event is missing; otherwise each supplied field is overwritten, each absent field kept, and the update time set |
| EventService.DeleteEvent | auroranet/src/app/services/event.service.ts:273-282 | exactly that key is removed and every other event is untouched |
| EventService.GetEvents | auroranet/src/app/services/event.service.ts:90-127 | the result is ordered by date and holds exactly the matching events with their multiplicities: inclusive date bounds, status and slot where given |
| EventService.LimitIsIgnored | auroranet/src/app/services/event.service.ts:90-127 | the limit option does not change the events returned or their number |
| EventService.GetUpcomingEvents | auroranet/src/app/services/event.service.ts:289-298 | ordered by date; exactly the SCHEDULED events on or after the start of today, each as often as it is listed |
| ReservationService.MessagesDistinct | auroranet/src/app/services/reservation.ts:48-167 | the rejections of registration and cancellation carry pairwise distinct messages |
| ReservationService.CheckEventAvailability | auroranet/src/app/services/reservation.ts:245-258 | available exactly when the event exists and is not full |
| ReservationService.RegisterForEvent | auroranet/src/app/services/reservation.ts:48-107 | duplicate first, then full or missing; succeeds exactly when no confirmed duplicate exists and the event exists with a free seat; inserts one confirmed reservation with the given fields and defaults; raises the count by one, never beyond capacity, leaving every other document unchanged |
| ReservationService.CancelRegistration | auroranet/src/app/services/reservation.ts:115-167 | errors in the order missing, not confirmed, event missing, too late; succeeds exactly when all four checks pass; changes only the reservation's status and update time, and lowers the count by one, floored at zero |
| ReservationService.ActiveOnly | auroranet/src/app/services/reservation.ts:190-193 | when requested, exactly the confirmed reservations with their multiplicities and order; otherwise the list unchanged |
| ReservationService.GetUserReservations | auroranet/src/app/services/reservation.ts:175-202 | exactly the user's reservations, confirmed only when requested, each as often as it is listed, newest first |
| ReservationService.GetEventReservations | auroranet/src/app/services/reservation.ts:210-238 | exactly the event's reservations, confirmed only when requested, each as often as it is listed, oldest first |
| Consistency.ConfirmedCountAfterInsert | auroranet/src/app/services/reservation.ts:80-100 | storing a new reservation under a fresh key adds one to its event's confirmed count when it is confirmed and leaves every other count alone |
| Consistency.ConfirmedCountAfterRemoval | auroranet/src/app/services/reservation.ts:149-160 | turning a confirmed reservation into a non-confirmed one removes one from its event's confirmed count only |
| Consistency.CountsAfterConfirmedInsert | auroranet/src/app/services/reservation.ts:80-100 | one more confirmed reservation for an event, together with its count raised by one, keeps every count equal to its confirmed reservations |
| Consistency.CountsAfterConfirmedRemoval | auroranet/src/app/services/reservation.ts:149-160 | one confirmed reservation fewer for an event, together with its count lowered by one, keeps every count equal to its confirmed reservations |
| Consistency.RegisterKeepsCounts | auroranet/src/app/services/reservation.ts:48-107 | after a successful registration every event's count equals its number of confirmed reservations |
| Consistency.RegisterKeepsUnique | auroranet/src/app/services/reservation.ts:57-61 | the duplicate check keeps at most one confirmed reservation per user and event |
| Consistency.RegisterPreservesConsistency | auroranet/src/app/services/reservation.ts:48-107 | a successful registration keeps the whole store invariant, including no event over capacity |
| Consistency.FullEventRejectsRegistration | auroranet/src/app/services/reservation.ts:66-69 | registering for a full event is refused, as a duplicate or as full |
| Consistency.ConfirmedNeverExceedCapacity | auroranet/src/app/services/reservation.ts:95-100 | in a consistent store no event has more confirmed reservations than seats |
| Consistency.CancelKeepsCounts | auroranet/src/app/services/reservation.ts:115-167 | after a successful cancellation every event's count equals its number of confirmed reservations |
| Consistency.CancelPreservesConsistency | auroranet/src/app/services/reservation.ts:115-167 | a successful cancellation keeps the whole store invariant |
| Consistency.CancelAllowsReRegistration | auroranet/src/app/services/reservation.ts:267-282 | after a cancellation the user holds no confirmed reservation for that event, so the duplicate check no longer applies |
| Consistency.SecondCancelRefused | auroranet/src/app/services/reservation.ts:128-132 | cancelling the same reservation again is refused as inactive, so the count is lowered only once |
| Consistency.SingleSeatScenario | auroranet/src/app/services/reservation.ts:48-167 | capacity one: A registers and fills the event, B is refused, A cancels a day ahead and the event reopens, then B registers |
| Consistency.CreateEventPreservesConsistency | auroranet/src/app/services/event.service.ts:60-83 | a new event with no reservations and a non-negative capacity keeps the store invariant |
| Consistency.DeleteEventPreservesConsistency | auroranet/src/app/services/event.service.ts:273-282 | deleting an event keeps the invariant of the remaining events; its reservations stay |
| Consistency.UpdateEventPreservesConsistency | auroranet/src/app/services/event.service.ts:215-228 | an update that does not lower the capacity below the count keeps the store invariant |
| Consistency.UpdateEventCanOverbook | auroranet/src/app/services/event.service.ts:215-228 | an update that lowers the capacity below the count succeeds and leaves the event over capacity |
| EventParticipants.ByStatus | auroranet/src/app/admin/event-participants/event-participants.ts:144-146 | an order-preserving subsequence holding exactly the participants with the selected status, each as often as it is listed |
| EventParticipants.ByCheckIn | auroranet/src/app/admin/event-participants/event-participants.ts:149-153 | an order-preserving subsequence holding exactly the participants with the selected check-in state, each as often as it is listed |
| EventParticipants.ByPayment | auroranet/src/app/admin/event-participants/event-participants.ts:156-158 | an order-preserving subsequence holding exactly the participants with the selected payment status, each as often as it is listed |
| EventParticipants.BySearch | auroranet/src/app/admin/event-participants/event-participants.ts:161-167 | a blank term keeps everyone; otherwise exactly those whose name or email contains the lower-cased, untrimmed term, ignoring case; each kept participant as often as it is listed |
| EventParticipants.ApplyFilters | auroranet/src/app/admin/event-participants/event-participants.ts:140-170 | an order-preserving subsequence holding exactly the participants every filter accepts, each as often as it is listed |
| EventParticipants.NoFilterShowsAll | auroranet/src/app/admin/event-participants/event-participants.ts:140-170 | with every drop-down on "all" and a blank search the list is unchanged |
| EventParticipants.DefaultShowsConfirmed | auroranet/src/app/admin/event-participants/event-participants.ts:54-57 | the initial filters show the confirmed reservations, in the loaded order and each as often as it is loaded |
| EventParticipants.RegisteredUserIds | auroranet/src/app/admin/event-participants/event-participants.ts:211-213 | exactly the users holding a confirmed reservation in the list |
| EventParticipants.AvailableUsers | auroranet/src/app/admin/event-participants/event-participants.ts:207-223 | an order-preserving subsequence holding exactly the users with no confirmed reservation for the event, each as often as it is listed |
| EventParticipants.FilterAvailableUsers | auroranet/src/app/admin/event-participants/event-participants.ts:228-240 | a blank term keeps the list; otherwise exactly the users whose name, email or phone contains the term, ignoring case, each as often as it is listed |
| EventParticipants.GetStatistics | auroranet/src/app/admin/event-participants/event-participants.ts:591-610 | total, checked-in, paid, unpaid and pending are the numbers of confirmed participants that are, respectively, any, checked in, paid, UNPAID and PENDING; not-checked-in is the confirmed ones without a check-in; checked-in plus not-checked-in is the total; paid plus unpaid plus pending is at most the total |
| EventParticipants.StatisticsOfNobody | auroranet/src/app/admin/event-participants/event-participants.ts:591-610 | with nobody on the list every counter is zero |
| EventParticipants.StatisticsIgnoreUnconfirmed | auroranet/src/app/admin/event-participants/event-participants.ts:591-610 | a participant who is not confirmed changes no counter |
| EventParticipants.StatisticsCountNewConfirmed | auroranet/src/app/admin/event-participants/event-participants.ts:591-610 | a further confirmed participant adds one to the total, one to exactly one of checked-in and not-checked-in, and one to the payment counter of its status |
| EventParticipants.AddUserToEvent | auroranet/src/app/admin/event-participants/event-participants.ts:252-284 | nothing happens without a loaded event; the screen refuses exactly when its copy of the event is full; otherwise it submits the chosen user's registration |
| EventParticipants.StaleSnapshotStillRefused | auroranet/src/app/admin/event-participants/event-participants.ts:256-270 | when the screen's copy shows a free seat but the stored event is full, the submitted registration is still refused |
| EventParticipants.RemoveParticipant | auroranet/src/app/admin/event-participants/event-participants.ts:303-324 | nothing happens without a selected participant; otherwise the result is the ordinary cancellation |
| EventParticipants.RemovalWithinNoticeRefused | auroranet/src/app/admin/event-participants/event-participants.ts:303-312 | an administrator cannot remove a confirmed participant less than 24 hours before the event |
| EventParticipants.RecordPayment | auroranet/src/app/admin/event-participants/event-participants.ts:536-567 | a payment is submitted exactly when a participant is selected, the amount is positive and an administrator is signed in; it carries that participant, amount, method and administrator, and the administrator name, transaction id and notes when non-empty |
| Instants.StartOfDay | auroranet/src/app/user/events/events.ts:87-91 | the day boundary at or before the instant, less than a day before it |
| Instants.EndOfDay | auroranet/src/app/user/events/events.ts:148-152 | the last millisecond of the instant's day |
| Instants.OnOrAfterStartOfDay | auroranet/src/app/user/events/events.ts:142-146 | being at or after the start of a day is being on that day or later |
| Instants.OnOrBeforeEndOfDay | auroranet/src/app/user/events/events.ts:148-152 | being at or before the end of a day is being on that day or earlier |
| UserEvents.LoadEvents | auroranet/src/app/user/events/events.ts:82-109 | ordered by date; exactly the SCHEDULED and FULL events from today on, each as often as it is listed |
| UserEvents.ByDays | auroranet/src/app/user/events/events.ts:142-152 | an order-preserving subsequence holding exactly the events whose calendar day lies within the given days, inclusive, each as often as it is listed |
| UserEvents.ApplyFilters | auroranet/src/app/user/events/events.ts:137-164 | an order-preserving subsequence, sorted when its input is; exactly the events within the days, of the slot ("" and "all" accept both), and not yet begun, each as often as it is listed |
| UserEvents.AvailableSlots | auroranet/src/app/user/events/events.ts:199-208 | seats left are zero or fewer exactly when the event is full, and never negative while the count is within capacity |
| UserEvents.LoadUserReservations | auroranet/src/app/user/events/events.ts:114-132 | nothing without a signed-in member; otherwise exactly the member's confirmed reservations, each as often as it is listed, newest first, and an event counts as registered exactly when one of them is for it |
| UserEvents.GetUserReservation | auroranet/src/app/user/events/events.ts:227-229 | finds a reservation exactly when one is for the event, and then the first one |
| UserManagement.LoadUsers | auroranet/src/app/admin/user-management/user-management.ts:41-59 | a permutation of the loaded users ordered by creation time, newest first |
| UserManagement.ApplyFilters | auroranet/src/app/admin/user-management/user-management.ts:64-88 | an order-preserving subsequence holding exactly the users of the role, visible under the disabled switch, and matching a non-empty search on email, name or phone, each as often as it is listed |
| UserManagement.DefaultFiltersShowAll | auroranet/src/app/admin/user-management/user-management.ts:64-88 | role "all", disabled users shown and an empty search show the list unchanged |
| UserManagement.CountByRole | auroranet/src/app/admin/user-management/user-management.ts:227-229 | at most the number of users, and zero exactly when nobody has the role |
| UserManagement.CountByRoleOfNobody | auroranet/src/app/admin/user-management/user-management.ts:227-229 | an empty list has nobody in any role |
| UserManagement.CountByRoleAppend | auroranet/src/app/admin/user-management/user-management.ts:227-229 | one more user adds one to the count of their own role and nothing to the other, so the count is the number of users holding the role |
| UserManagement.RoleCountsAddUp | auroranet/src/app/admin/user-management/user-management.ts:227-229 | the administrator and guest counts add up to the number of users |
| Provisioning.ParseRole | auroranet/functions/src/index.ts:59-64 | a role is accepted exactly when it is the string "admin" or "guest" |
| Provisioning.MatchE164 | auroranet/functions/src/index.ts:145-152 | the scan accepts exactly the strings of the format: a plus sign, a digit 1-9, then one to fourteen digits |
| Provisioning.E164Examples | auroranet/functions/src/index.ts:145-152 | two and fifteen digits are accepted; one or sixteen digits, a leading zero, a missing plus sign or a space are rejected |
| Provisioning.CreateUserWithEmail | auroranet/functions/src/index.ts:21-104 | rejections in the order unauthenticated, not admin, email, password under 6, display name, role; succeeds exactly when all pass; the account and document carry the request's email, password, display name and role, the account gets the request's phone number when it is non-empty and none otherwise, and the user is enabled |
| Provisioning.CreateUserWithPhone | auroranet/functions/src/index.ts:118-202 | rejections in the order unauthenticated, not admin, phone missing, phone format, display name, role; succeeds exactly when all pass; the number serves as email and phone |

## Left out

- Firestore, AngularFire and RxJS plumbing are not modelled. Each call is one atomic step over two maps, and a failed read that the code turns into an empty result is not modelled.
- Concurrency is left out. The read-then-write sequences in registration and cancellation are modelled as sequential, so races that overbook or miscount are outside the model.
- Check-in and payment persistence (`checkInParticipant`, `undoCheckIn`, `bulkCheckIn`, the service's `recordPayment` and `updatePaymentStatus`) is left out. Their implementations are not part of this model, so only the screen's guards in front of them are modelled.
- The wall clock is a parameter. The local time zone is replaced by UTC days. Calendar month arithmetic (`setMonth`) is an abstract function parameter.
- EventParticipants.GetStatistics: omits `totalRevenue`, because payment amounts are floating-point numbers of currency.
- EventParticipants.RecordPayment: amounts are integers, not floating-point numbers.
- Text.Lower: lower-cases ASCII letters only. Full Unicode case mapping is not modelled, and string lengths count characters, not UTF-16 code units.
- Sorting is modelled as a stable sort by the order key. The store breaks ties among equal keys by document id; the model keeps the listing's order among equal keys instead.
- Provisioning.CreateUserWithEmail: the optional phone is absent or a string. A non-string phone value is not modelled. The Firebase Admin calls, logging and the `internal` error on their failure are left out.
- Provisioning.CreateUserWithPhone: the optional password is absent or a string. Server timestamps are the `now` parameter, and the authentication service's uid is the `uid` parameter.
- UI glue is left out: CSV export, modals, messages, timers, routes, CSS mappers and the calendar.
- The admin route guard performs no role check, so there is nothing to model.
- UserModel.User: the fields `displayName`, `phone` and `disabled` are used by the screens and written by the provisioning endpoint. They are not in the declared user document type, so the model adds them.

=== FILE: consistency.dfy ===
/** The consistency of the two collections: every event's registered count
    equals its number of confirmed reservations, no event is over capacity,
    and a user holds at most one confirmed reservation per event. Each
    operation that writes the store is shown to keep it, or shown exactly
    where it does not.
 */
module Consistency {
  import opened Wrappers
  import opened Instants
  import opened EventModel
  import opened ReservationModel
  import opened EventService
  import opened ReservationService


  ghost predicate ReservationsWellKeyed(res: Reservations) {
    forall k :: k in res ==> res[k].id == k
  }

  /** Every event's registered count is the number of confirmed
      reservations that point at it. */
  ghost predicate CountsConsistent(st: Store) {
    forall id :: id in st.events ==> st.events[id].registeredCount == |ConfirmedIds(st.reservations, id)|
  }

  /** No event holds more confirmed registrations than seats. */
  ghost predicate WithinCapacity(st: Store) {
    forall id :: id in st.events ==> st.events[id].registeredCount <= st.events[id].capacity
  }

  /** A user holds at most one confirmed reservation per event. */
  ghost predicate OneConfirmedPerUser(st: Store) {
    forall a, b ::
      && a in st.reservations && b in st.reservations
      && st.reservations[a].status == Confirmed && st.reservations[b].status == Confirmed
      && st.reservations[a].userId == st.reservations[b].userId
      && st.reservations[a].eventId == st.reservations[b].eventId
      ==> a == b
  }

  ghost predicate Consistent(st: Store) {
    && WellKeyed(st.events)
    && ReservationsWellKeyed(st.reservations)
    && CountsConsistent(st)
    && WithinCapacity(st)
    && OneConfirmedPerUser(st)
  }

  // ---------------------------------------------------------------------
  // How one write changes the set of confirmed reservations of an event

  lemma ConfirmedIdsAfterWrite(res: Reservations, k: string, r: Reservation, e: string)
    ensures ConfirmedIds(res[k := r], e)
            == (ConfirmedIds(res, e) - {k}) + (if r.eventId == e && r.status == Confirmed then {k} else {})
  {
  }

  // ---------------------------------------------------------------------
  // Registration

  /** Storing a new reservation under a fresh key adds it to its event's
      confirmed set when it is confirmed, and changes no other set. */
  lemma ConfirmedCountAfterInsert(res: Reservations, k: string, r: Reservation, e: string)
    requires k !in res
    ensures |ConfirmedIds(res[k := r], e)|
            == |ConfirmedIds(res, e)| + (if r.eventId == e && r.status == Confirmed then 1 else 0)
  {
    ConfirmedIdsAfterWrite(res, k, r, e);
    assert k !in ConfirmedIds(res, e);
    if r.eventId == e && r.status == Confirmed {
      assert ConfirmedIds(res[k := r], e) == ConfirmedIds(res, e) + {k};
    } else {
      assert ConfirmedIds(res[k := r], e) == ConfirmedIds(res, e);
    }
  }

  /** Overwriting a confirmed reservation with a non-confirmed one removes
      it from its event's confirmed set and changes no other set. */
  lemma ConfirmedCountAfterRemoval(res: Reservations, k: string, r: Reservation, e: string)
    requires k in res && res[k].status == Confirmed && r.status != Confirmed
    ensures |ConfirmedIds(res[k := r], e)| == |ConfirmedIds(res, e)| - (if res[k].eventId == e then 1 else 0)
  {
    ConfirmedIdsAfterWrite(res, k, r, e);
    if res[k].eventId == e {
      assert k in ConfirmedIds(res, e);
      assert ConfirmedIds(res[k := r], e) == ConfirmedIds(res, e) - {k};
    } else {
      assert k !in ConfirmedIds(res, e);
      assert ConfirmedIds(res[k := r], e) == ConfirmedIds(res, e);
    }
  }

  /** Adding one confirmed reservation for `eid` and raising `eid`'s count
      by one keeps the counts consistent. */
  lemma CountsAfterConfirmedInsert(st: Store, st': Store, newId: string, eid: string)
    requires CountsConsistent(st)
    requires newId !in st.reservations
    requires newId in st'.reservations
    requires st'.reservations == st.reservations[newId := st'.reservations[newId]]
    requires st'.reservations[newId].eventId == eid && st'.reservations[newId].status == Confirmed
    requires eid in st.events
    requires st'.events.Keys == st.events.Keys
    requires forall k :: k in st.events && k != eid ==> st'.events[k] == st.events[k]
    requires st'.events[eid].registeredCount == st.events[eid].registeredCount + 1
    ensures CountsConsistent(st')
  {
    var nr := st'.reservations[newId];
    forall id | id in st'.events
      ensures st'.events[id].registeredCount == |ConfirmedIds(st'.reservations, id)|
    {
      ConfirmedCountAfterInsert(st.reservations, newId, nr, id);
    }
  }

  /** The count a successful registration writes is the new number of
      confirmed reservations of the event. */
  lemma RegisterKeepsCounts(st: Store, data: ReservationCreateData, userId: string, userEmail: string,
                            userDisplayName: Option<string>, newId: string, now: Instant)
    requires CountsConsistent(st)
    requires newId !in st.reservations
    ensures var r := RegisterForEvent(st, data, userId, userEmail, userDisplayName, newId, now);
      r.Ok? ==> CountsConsistent(r.value.0)
  {
    var r := RegisterForEvent(st, data, userId, userEmail, userDisplayName, newId, now);
    if r.Ok? {
      var st' := r.value.0;
      assert st'.reservations == st.reservations[newId := st'.reservations[newId]];
      CountsAfterConfirmedInsert(st, st', newId, data.eventId);
    }
  }

  /** The duplicate check keeps confirmed reservations unique per user and
      event. */
  lemma RegisterKeepsUnique(st: Store, data: ReservationCreateData, userId: string, userEmail: string,
                            userDisplayName: Option<string>, newId: string, now: Instant)
    requires OneConfirmedPerUser(st)
    requires newId !in st.reservations
    ensures var r := RegisterForEvent(st, data, userId, userEmail, userDisplayName, newId, now);
      r.Ok? ==> OneConfirmedPerUser(r.value.0)
  {
    var r := RegisterForEvent(st, data, userId, userEmail, userDisplayName, newId, now);
    if r.Ok? {
      var res' := r.value.0.reservations;
      var eid := data.eventId;
      assert !CheckExistingReservation(st.reservations, userId, eid);
      assert forall k :: k in st.reservations ==>
        !(st.reservations[k].userId == userId && st.reservations[k].eventId == eid && st.reservations[k].status == Confirmed);
    }
  }

  /** A successful registration keeps the whole store consistent; in
      particular it never pushes an event past its capacity. */
  lemma RegisterPreservesConsistency(st: Store, data: ReservationCreateData, userId: string, userEmail: string,
                                     userDisplayName: Option<string>, newId: string, now: Instant)
    requires Consistent(st)
    requires newId !in st.reservations
    ensures var r := RegisterForEvent(st, data, userId, userEmail, userDisplayName, newId, now);
      r.Ok? ==> Consistent(r.value.0)
  {
    RegisterKeepsCounts(st, data, userId, userEmail, userDisplayName, newId, now);
    RegisterKeepsUnique(st, data, userId, userEmail, userDisplayName, newId, now);
  }

  /** An event with no seat left turns every registration away and the store
      is left as it was. */
  lemma FullEventRejectsRegistration(st: Store, data: ReservationCreateData, userId: string, userEmail: string,
                                     userDisplayName: Option<string>, newId: string, now: Instant)
    requires newId !in st.reservations
    requires data.eventId in st.events && st.events[data.eventId].registeredCount >= st.events[data.eventId].capacity
    ensures var r := RegisterForEvent(st, data, userId, userEmail, userDisplayName, newId, now);
      r == Err(DuplicateReservation) || r == Err(FullOrUnavailable)
  {
  }

  /** In a consistent store no registration can push an event past its
      capacity: confirmed reservations never outnumber seats. */
  lemma ConfirmedNeverExceedCapacity(st: Store, eventId: string)
    requires Consistent(st)
    requires eventId in st.events
    ensures |ConfirmedIds(st.reservations, eventId)| <= st.events[eventId].capacity
  {
  }

  // ---------------------------------------------------------------------
  // Cancellation

  /** Turning one confirmed reservation of `eid` into a non-confirmed one
      and lowering `eid`'s count by one keeps the counts consistent. */
  lemma CountsAfterConfirmedRemoval(st: Store, st': Store, k: string, eid: string)
    requires CountsConsistent(st)
    requires k in st.reservations && k in st'.reservations
    requires st.reservations[k].eventId == eid && st.reservations[k].status == Confirmed
    requires st'.reservations == st.reservations[k := st'.reservations[k]]
    requires st'.reservations[k].status != Confirmed
    requires eid in st.events
    requires st'.events.Keys == st.events.Keys
    requires forall id :: id in st.events && id != eid ==> st'.events[id] == st.events[id]
    requires st'.events[eid].registeredCount == st.events[eid].registeredCount - 1
    ensures CountsConsistent(st')
  {
    var after := st'.reservations[k];
    forall id | id in st'.events
      ensures st'.events[id].registeredCount == |ConfirmedIds(st'.reservations, id)|
    {
      ConfirmedCountAfterRemoval(st.reservations, k, after, id);
    }
  }

  /** The count a successful cancellation writes is the new number of
      confirmed reservations of the event. */
  lemma CancelKeepsCounts(st: Store, reservationId: string, now: Instant)
    requires CountsConsistent(st)
    ensures var r := CancelRegistration(st, reservationId, now);
      r.Ok? ==> CountsConsistent(r.value)
  {
    var r := CancelRegistration(st, reservationId, now);
    if r.Ok? {
      var st' := r.value;
      var eid := st.reservations[reservationId].eventId;
      assert reservationId in ConfirmedIds(st.reservations, eid);
      assert |ConfirmedIds(st.reservations, eid)| >= 1;
      assert st'.reservations == st.reservations[reservationId := st'.reservations[reservationId]];
      CountsAfterConfirmedRemoval(st, st', reservationId, eid);
    }
  }

  /** A successful cancellation keeps the store consistent: the cancelled
      reservation leaves the confirmed set and the count drops by exactly one. */
  lemma CancelPreservesConsistency(st: Store, reservationId: string, now: Instant)
    requires Consistent(st)
    ensures var r := CancelRegistration(st, reservationId, now);
      r.Ok? ==> Consistent(r.value)
  {
    CancelKeepsCounts(st, reservationId, now);
  }

  /** After a successful cancellation the user holds no confirmed
      reservation for that event, so the duplicate check no longer stands in
      the way of registering again: only confirmed reservations count. */
  lemma CancelAllowsReRegistration(st: Store, reservationId: string, now: Instant)
    requires OneConfirmedPerUser(st)
    requires CancelRegistration(st, reservationId, now).Ok?
    ensures var before := st.reservations[reservationId];
      !CheckExistingReservation(CancelRegistration(st, reservationId, now).value.reservations,
                                before.userId, before.eventId)
  {
    var before := st.reservations[reservationId];
    var res' := CancelRegistration(st, reservationId, now).value.reservations;
    forall k | k in res' && res'[k].userId == before.userId && res'[k].eventId == before.eventId
      ensures res'[k].status != Confirmed
    {
      if k != reservationId {
        assert res'[k] == st.reservations[k];
      }
    }
  }

  /** Cancelling the same reservation twice: the second attempt is refused
      as inactive, so the count is decremented only once. */
  lemma SecondCancelRefused(st: Store, reservationId: string, now: Instant, later: Instant)
    requires CancelRegistration(st, reservationId, now).Ok?
    ensures CancelRegistration(CancelRegistration(st, reservationId, now).value, reservationId, later)
            == Err(ReservationInactive)
  {
  }

  /** Capacity one: A registers and fills the event, B is turned away, A
      cancels a day ahead and the seat reopens, then B gets it. */
  lemma SingleSeatScenario(ev: Event, now: Instant)
    requires ev.capacity == 1 && ev.registeredCount == 0
    requires ev.date - now >= CancellationNotice
    ensures var st0 := Store(map["e" := ev], map[]);
      var data := ReservationCreateData("e", None);
      var r1 := RegisterForEvent(st0, data, "A", "a@example.org", None, "r1", now);
      && r1.Ok?
      && r1.value.0.events["e"].registeredCount == 1
      && r1.value.0.events["e"].status == Full
      && "r2" !in r1.value.0.reservations
      && RegisterForEvent(r1.value.0, data, "B", "b@example.org", None, "r2", now) == Err(FullOrUnavailable)
      && var c := CancelRegistration(r1.value.0, "r1", now);
      && c.Ok?
      && c.value.events["e"].registeredCount == 0
      && c.value.events["e"].status == Scheduled
      && "r2" !in c.value.reservations
      && RegisterForEvent(c.value, data, "B", "b@example.org", None, "r2", now).Ok?
  {
    var st0 := Store(map["e" := ev], map[]);
    var data := ReservationCreateData("e", None);
    var r1 := RegisterForEvent(st0, data, "A", "a@example.org", None, "r1", now);
    assert !CheckExistingReservation(st0.reservations, "A", "e");
    var st1 := r1.value.0;
    assert st1.reservations.Keys == {"r1"};
    assert !CheckExistingReservation(st1.reservations, "B", "e");
    var c := CancelRegistration(st1, "r1", now);
    assert c.value.reservations.Keys == {"r1"};
    assert !CheckExistingReservation(c.value.reservations, "B", "e");
  }

  // ---------------------------------------------------------------------
  // Event administration

  /** A new event under a key no reservation refers to starts consistent. */
  lemma CreateEventPreservesConsistency(st: Store, data: EventCreateData, adminUserId: string, newId: string, now: Instant)
    requires Consistent(st)
    requires newId !in st.events
    requires forall k :: k in st.reservations ==> st.reservations[k].eventId != newId
    requires data.capacity >= 0
    ensures Consistent(Store(CreateEvent(st.events, data, adminUserId, newId, now), st.reservations))
  {
    assert ConfirmedIds(st.reservations, newId) == {};
  }

  /** Deleting an event keeps the store consistent, although reservations
      that point at the deleted event remain. */
  lemma DeleteEventPreservesConsistency(st: Store, eventId: string)
    requires Consistent(st)
    ensures Consistent(Store(DeleteEvent(st.events, eventId), st.reservations))
  {
  }

  /** An admin edit never touches the count, so it keeps the store consistent
      as long as it does not lower the capacity below the count. */
  lemma UpdateEventPreservesConsistency(st: Store, eventId: string, upd: EventUpdateData, now: Instant)
    requires Consistent(st)
    requires eventId in st.events && upd.capacity.Some? ==> upd.capacity.value >= st.events[eventId].registeredCount
    ensures var r := UpdateEvent(st.events, eventId, upd, now);
      r.Ok? ==> Consistent(Store(r.value, st.reservations))
  {
  }

  /** An admin edit that lowers the capacity below the count is accepted and
      leaves the event over capacity. */
  lemma UpdateEventCanOverbook(st: Store, eventId: string, upd: EventUpdateData, now: Instant)
    requires eventId in st.events
    requires upd.capacity.Some? && upd.capacity.value < st.events[eventId].registeredCount
    ensures UpdateEvent(st.events, eventId, upd, now).Ok?
    ensures !WithinCapacity(Store(UpdateEvent(st.events, eventId, upd, now).value, st.reservations))
  {
    var events' := UpdateEvent(st.events, eventId, upd, now).value;
    assert events'[eventId].registeredCount > events'[eventId].capacity;
  }
}

=== FILE: event_model.dfy ===
/** The event record, its enumerations and the pure helpers defined next to
    them: slot hours and labels, fullness, and the two-month planning window.
 */
module EventModel {
  import opened Instants
  import opened Text

  /** Events are 3-hour sessions in the morning or the afternoon. */
  datatype TimeSlot = Morning | Afternoon

  datatype EventStatus = Scheduled | Full | Cancelled | Completed

  /** An event document. `id` is the document key the store reads it under;
      `date` is the event's start instant. */
  datatype Event = Event(
    id: string,
    title: string,
    description: string,
    date: Instant,
    timeSlot: TimeSlot,
    duration: int,
    capacity: int,
    registeredCount: int,
    status: EventStatus,
    location: string,
    createdBy: string,
    createdAt: Instant,
    updatedAt: Instant)

  /** The stored (enum) spelling of a slot, as compared by the slot filters. */
  function TimeSlotName(slot: TimeSlot): string {
    match slot
    case Morning => "MORNING"
    case Afternoon => "AFTERNOON"
  }

  lemma TimeSlotNameInjective(a: TimeSlot, b: TimeSlot)
    ensures TimeSlotName(a) == TimeSlotName(b) ==> a == b
  {
  }

  /** The human-readable label of a slot. */
  function TimeSlotDisplay(slot: TimeSlot): string {
    if slot == Morning then "Morning (09:00 - 12:00)" else "Afternoon (14:00 - 17:00)"
  }

  /** A span of whole hours of the day. */
  datatype HourSpan = HourSpan(start: int, end: int)

  /** The hours a slot occupies. */
  function TimeSlotHours(slot: TimeSlot): (h: HourSpan)
    ensures 0 <= h.start < h.end <= 24
    ensures h.end - h.start == 3
  {
    if slot == Morning then HourSpan(9, 12) else HourSpan(14, 17)
  }

  /** The morning slot ends before the afternoon slot starts. */
  lemma SlotsDoNotOverlap()
    ensures TimeSlotHours(Morning).end < TimeSlotHours(Afternoon).start
  {
  }

  /** Two-digit decimal rendering of an hour. */
  function TwoDigits(n: int): string
    requires 0 <= n < 100
  {
    [('0' as int + n / 10) as char, ('0' as int + n % 10) as char]
  }

  /** "HH:00 - HH:00" for a span of hours. */
  function SpanText(h: HourSpan): string
    requires 0 <= h.start < 100 && 0 <= h.end < 100
  {
    TwoDigits(h.start) + ":00 - " + TwoDigits(h.end) + ":00"
  }

  /** The label of a slot shows exactly the hours the slot occupies. */
  lemma DisplayShowsSlotHours(slot: TimeSlot)
    ensures Contains(TimeSlotDisplay(slot), SpanText(TimeSlotHours(slot)))
  {
    if slot == Morning {
      MorningShowsHours();
    } else {
      AfternoonShowsHours();
    }
  }

  lemma MorningShowsHours()
    ensures Contains(TimeSlotDisplay(Morning), SpanText(TimeSlotHours(Morning)))
  {
    var d := TimeSlotDisplay(Morning);
    var t := SpanText(TimeSlotHours(Morning));
    assert t == "09:00 - 12:00";
    assert d[9..22] == t;
    assert OccursAt(d, t, 9);
    ContainsIffOccursAt(d, t);
  }

  lemma AfternoonShowsHours()
    ensures Contains(TimeSlotDisplay(Afternoon), SpanText(TimeSlotHours(Afternoon)))
  {
    var d := TimeSlotDisplay(Afternoon);
    var t := SpanText(TimeSlotHours(Afternoon));
    assert t == "14:00 - 17:00";
    assert d[11..24] == t;
    assert OccursAt(d, t, 11);
    ContainsIffOccursAt(d, t);
  }

  /** The event has no seat left. */
  predicate IsEventFull(e: Event) {
    e.registeredCount >= e.capacity
  }

  /** Calendar arithmetic that moves an instant forward by whole months
      (`Date.prototype.setMonth(getMonth() + n)`); it is a parameter of the
      model rather than a definition. */
  type AddMonths = (Instant, int) -> Instant

  /** An event day is valid when it lies between today and the same day two
      months later, both ends included, comparing days rather than instants. */
  predicate IsEventDateValid(date: Instant, now: Instant, addMonths: AddMonths) {
    var today := StartOfDay(now);
    var twoMonthsFromNow := addMonths(today, 2);
    var eventDay := StartOfDay(date);
    eventDay >= today && eventDay <= twoMonthsFromNow
  }

  datatype DateRange = DateRange(min: Instant, max: Instant)

  /** The bounds offered to date pickers. */
  function ValidEventDateRange(now: Instant, addMonths: AddMonths): (r: DateRange)
    ensures r.min % MsPerDay == 0
    ensures r.min <= now < r.min + MsPerDay
  {
    var today := StartOfDay(now);
    DateRange(today, addMonths(today, 2))
  }

  /** The range's bounds are exactly the days `IsEventDateValid` accepts. */
  lemma DateRangeMatchesValidity(date: Instant, now: Instant, addMonths: AddMonths)
    ensures var r := ValidEventDateRange(now, addMonths);
      IsEventDateValid(date, now, addMonths) <==> r.min <= StartOfDay(date) <= r.max
  {
  }

  /** Validity depends only on the day of the event, and today itself is
      valid whenever the two-month bound is not before today. */
  lemma DateValidityIsPerDay(d1: Instant, d2: Instant, now: Instant, addMonths: AddMonths)
    requires StartOfDay(d1) == StartOfDay(d2)
    ensures IsEventDateValid(d1, now, addMonths) == IsEventDateValid(d2, now, addMonths)
    ensures addMonths(StartOfDay(now), 2) >= StartOfDay(now) ==> IsEventDateValid(now, now, addMonths)
  {
  }

  /** Any instant of today is valid, even one earlier than `now`. */
  lemma EarlierTodayIsValid(date: Instant, now: Instant, addMonths: AddMonths)
    requires StartOfDay(now) <= date <= now
    requires addMonths(StartOfDay(now), 2) >= StartOfDay(now)
    ensures IsEventDateValid(date, now, addMonths)
  {
    OnOrAfterStartOfDay(date, now);
    OnOrBeforeEndOfDay(date, now);
  }
}

=== FILE: event_participants.dfy ===
/** The administrator's participants screen for one event: the filters over
    the event's reservations, the list of users who can still be added, the
    check-in and payment counters, and the guards in front of the add,
    remove and record-payment actions, each of which hands over to the
    reservation operations.
 */
module EventParticipants {
  import opened Wrappers
  import opened Instants
  import opened Sequences
  import opened Text
  import opened EventModel
  import opened ReservationModel
  import opened ReservationService
  import opened UserModel

  // ---------------------------------------------------------------------
  // Participant filters

  /** The status drop-down: everything, or one reservation status. */
  datatype StatusFilter = AllStatuses | OnlyStatus(status: ReservationStatus)

  /** The check-in drop-down. */
  datatype CheckInFilter = AnyCheckIn | CheckedInOnly | NotCheckedInOnly

  /** The payment drop-down: everything, or one payment status. A
      reservation without a payment status passes only the first. */
  datatype PaymentFilter = AllPayments | OnlyPayment(payment: PaymentStatus)

  datatype ParticipantFilters = ParticipantFilters(
    searchTerm: string,
    status: StatusFilter,
    checkIn: CheckInFilter,
    payment: PaymentFilter)

  /** What the screen opens with: confirmed reservations only. */
  const DefaultFilters := ParticipantFilters("", OnlyStatus(Confirmed), AnyCheckIn, AllPayments)

  predicate NotCheckedIn(p: Reservation) {
    !IsCheckedIn(p)
  }

  predicate MatchesStatus(f: StatusFilter, p: Reservation) {
    f.OnlyStatus? ==> p.status == f.status
  }

  predicate MatchesCheckIn(f: CheckInFilter, p: Reservation) {
    && (f.CheckedInOnly? ==> IsCheckedIn(p))
    && (f.NotCheckedInOnly? ==> !IsCheckedIn(p))
  }

  predicate MatchesPayment(f: PaymentFilter, p: Reservation) {
    f.OnlyPayment? ==> p.paymentStatus == Some(f.payment)
  }

  /** `t` occurs, ignoring case, in the display name (when there is one) or
      in the email. `t` is already lower-cased. */
  predicate SearchHit(t: string, p: Reservation) {
    || (p.userDisplayName.Some? && Contains(Lower(p.userDisplayName.value), t))
    || Contains(Lower(p.userEmail), t)
  }

  /** A blank search term (nothing but white space) matches everyone;
      otherwise the whole term, lower-cased but not trimmed, must occur. */
  predicate MatchesSearch(term: string, p: Reservation) {
    IsBlank(term) || SearchHit(Lower(term), p)
  }

  /** The declarative reading of the four filters together. */
  predicate KeepsParticipant(f: ParticipantFilters, p: Reservation) {
    && MatchesStatus(f.status, p)
    && MatchesCheckIn(f.checkIn, p)
    && MatchesPayment(f.payment, p)
    && MatchesSearch(f.searchTerm, p)
  }

  /** The status stage. */
  function ByStatus(ps: seq<Reservation>, f: StatusFilter): (r: seq<Reservation>)
    ensures IsSubsequence(r, ps)
    ensures forall p :: p in r <==> p in ps && MatchesStatus(f, p)
    ensures forall p :: multiset(r)[p] == if MatchesStatus(f, p) then multiset(ps)[p] else 0
  {
    match f
    case AllStatuses => SubsequenceReflexive(ps); ps
    case OnlyStatus(want) => Filter(ps, (p: Reservation) => p.status == want)
  }

  /** The check-in stage. */
  function ByCheckIn(ps: seq<Reservation>, f: CheckInFilter): (r: seq<Reservation>)
    ensures IsSubsequence(r, ps)
    ensures forall p :: p in r <==> p in ps && MatchesCheckIn(f, p)
    ensures forall p :: multiset(r)[p] == if MatchesCheckIn(f, p) then multiset(ps)[p] else 0
  {
    match f
    case CheckedInOnly => Filter(ps, IsCheckedIn)
    case NotCheckedInOnly => Filter(ps, NotCheckedIn)
    case AnyCheckIn => SubsequenceReflexive(ps); ps
  }

  /** The payment stage. */
  function ByPayment(ps: seq<Reservation>, f: PaymentFilter): (r: seq<Reservation>)
    ensures IsSubsequence(r, ps)
    ensures forall p :: p in r <==> p in ps && MatchesPayment(f, p)
    ensures forall p :: multiset(r)[p] == if MatchesPayment(f, p) then multiset(ps)[p] else 0
  {
    match f
    case AllPayments => SubsequenceReflexive(ps); ps
    case OnlyPayment(want) => Filter(ps, (p: Reservation) => p.paymentStatus == Some(want))
  }

  /** The search stage: skipped when the trimmed term is empty. */
  function BySearch(ps: seq<Reservation>, term: string): (r: seq<Reservation>)
    ensures IsSubsequence(r, ps)
    ensures forall p :: p in r <==> p in ps && MatchesSearch(term, p)
    ensures forall p :: multiset(r)[p] == if MatchesSearch(term, p) then multiset(ps)[p] else 0
  {
    TrimEmptyIffBlank(term);
    if Trim(term) == [] then
      SubsequenceReflexive(ps); ps
    else
      var t := Lower(term);
      Filter(ps, (p: Reservation) => SearchHit(t, p))
  }

  /** The four stages in the screen's order. The result keeps the order of
      the loaded list and holds exactly the participants every filter
      accepts. */
  function ApplyFilters(participants: seq<Reservation>, f: ParticipantFilters): (r: seq<Reservation>)
    ensures IsSubsequence(r, participants)
    ensures forall p :: p in r <==> p in participants && KeepsParticipant(f, p)
    ensures forall p :: multiset(r)[p] == if KeepsParticipant(f, p) then multiset(participants)[p] else 0
  {
    var s1 := ByStatus(participants, f.status);
    var s2 := ByCheckIn(s1, f.checkIn);
    var s3 := ByPayment(s2, f.payment);
    var s4 := BySearch(s3, f.searchTerm);
    SubsequenceTransitive(s2, s1, participants);
    SubsequenceTransitive(s3, s2, participants);
    SubsequenceTransitive(s4, s3, participants);
    s4
  }

  /** With every drop-down on "all" and a blank search the list is shown
      unchanged. */
  lemma NoFilterShowsAll(participants: seq<Reservation>, term: string)
    requires IsBlank(term)
    ensures ApplyFilters(participants, ParticipantFilters(term, AllStatuses, AnyCheckIn, AllPayments)) == participants
  {
    TrimEmptyIffBlank(term);
  }

  /** The opening view is the list of confirmed reservations, in the loaded
      order and each as often as it is loaded. */
  lemma DefaultShowsConfirmed(participants: seq<Reservation>)
    ensures ApplyFilters(participants, DefaultFilters) == Filter(participants, IsReservationActive)
  {
    var confirmed := Filter(participants, (p: Reservation) => p.status == Confirmed);
    FilterSamePredicate(participants, (p: Reservation) => p.status == Confirmed, IsReservationActive);
    assert ByStatus(participants, DefaultFilters.status) == confirmed;
    assert ByCheckIn(confirmed, AnyCheckIn) == confirmed;
    assert ByPayment(confirmed, AllPayments) == confirmed;
    assert Trim(DefaultFilters.searchTerm) == [];
    assert BySearch(confirmed, DefaultFilters.searchTerm) == confirmed;
  }

  // ---------------------------------------------------------------------
  // Users who can be added

  /** The keys of the users holding a confirmed reservation in the list.
      The screen builds an array and only ever asks whether it includes a
      key, so a set carries the same information. */
  function RegisteredUserIds(participants: seq<Reservation>): (ids: set<string>)
    ensures forall u :: u in ids <==> exists p :: p in participants && p.status == Confirmed && p.userId == u
  {
    set p | p in participants && p.status == Confirmed :: p.userId
  }

  /** Users who are not already confirmed for the event. A user whose
      reservation was cancelled can be added again. */
  function AvailableUsers(users: seq<User>, participants: seq<Reservation>): (r: seq<User>)
    ensures IsSubsequence(r, users)
    ensures forall u :: u in r <==>
      u in users && !exists p :: p in participants && p.status == Confirmed && p.userId == u.uid
    ensures forall u :: multiset(r)[u] == if u.uid !in RegisteredUserIds(participants) then multiset(users)[u] else 0
  {
    var registered := RegisteredUserIds(participants);
    Filter(users, (u: User) => u.uid !in registered)
  }

  /** The search box of the add-user dialog. */
  function FilterAvailableUsers(available: seq<User>, term: string): (r: seq<User>)
    ensures IsSubsequence(r, available)
    ensures IsBlank(term) ==> r == available
    ensures forall u :: u in r <==> u in available && (IsBlank(term) || UserSearchHit(Lower(term), u))
    ensures forall u :: multiset(r)[u] == if IsBlank(term) || UserSearchHit(Lower(term), u) then multiset(available)[u] else 0
  {
    TrimEmptyIffBlank(term);
    if Trim(term) == [] then
      SubsequenceReflexive(available); available
    else
      var t := Lower(term);
      Filter(available, (u: User) => UserSearchHit(t, u))
  }

  // ---------------------------------------------------------------------
  // Counters

  predicate IsUnpaid(p: Reservation) {
    p.paymentStatus == Some(Unpaid)
  }

  predicate IsPending(p: Reservation) {
    p.paymentStatus == Some(Pending)
  }

  datatype Statistics = Statistics(
    totalConfirmed: nat,
    checkedInCount: nat,
    notCheckedInCount: int,
    paidCount: nat,
    unpaidCount: nat,
    pendingCount: nat)

  /** The counters above the list, all over confirmed reservations only:
      how many are confirmed, checked in, paid, unpaid and pending. The
      not-checked-in figure is computed as a difference; it equals the
      number of confirmed reservations without a check-in, and the three
      payment figures never add up to more than the total. */
  function GetStatistics(participants: seq<Reservation>): (s: Statistics)
    ensures var confirmed := Filter(participants, IsReservationActive);
      && s.totalConfirmed == |confirmed|
      && s.checkedInCount == |Filter(confirmed, IsCheckedIn)|
      && s.paidCount == |Filter(confirmed, IsPaid)|
      && s.unpaidCount == |Filter(confirmed, IsUnpaid)|
      && s.pendingCount == |Filter(confirmed, IsPending)|
    ensures s.totalConfirmed <= |participants|
    ensures s.checkedInCount + s.notCheckedInCount == s.totalConfirmed
    ensures s.notCheckedInCount == |Filter(Filter(participants, IsReservationActive), NotCheckedIn)|
    ensures s.paidCount + s.unpaidCount + s.pendingCount <= s.totalConfirmed
  {
    var confirmed := Filter(participants, IsReservationActive);
    var checkedIn := |Filter(confirmed, IsCheckedIn)|;
    FilterPartition(confirmed, IsCheckedIn, NotCheckedIn);
    FilterDisjoint3(confirmed, IsPaid, IsUnpaid, IsPending);
    Statistics(
      |confirmed|,
      checkedIn,
      |confirmed| - checkedIn,
      |Filter(confirmed, IsPaid)|,
      |Filter(confirmed, IsUnpaid)|,
      |Filter(confirmed, IsPending)|)
  }

  /** With nobody on the list every counter is zero. */
  lemma StatisticsOfNobody()
    ensures GetStatistics([]) == Statistics(0, 0, 0, 0, 0, 0)
  {
  }

  /** A reservation that is not confirmed changes no counter. */
  lemma StatisticsIgnoreUnconfirmed(participants: seq<Reservation>, p: Reservation)
    requires p.status != Confirmed
    ensures GetStatistics(participants + [p]) == GetStatistics(participants)
  {
    FilterConcat(participants, [p], IsReservationActive);
    FilterUnfold([p], IsReservationActive);
    assert [p][1..] == [];
    assert Filter(participants, IsReservationActive) + [] == Filter(participants, IsReservationActive);
  }

  /** A further confirmed reservation adds one to the total, to exactly one
      of the two check-in counters, and to the payment counter of its
      payment status, if it has one of the three. Together with
      `StatisticsOfNobody` and `StatisticsIgnoreUnconfirmed` this fixes
      every counter by counting the list one reservation at a time. */
  lemma StatisticsCountNewConfirmed(participants: seq<Reservation>, p: Reservation)
    requires p.status == Confirmed
    ensures var before := GetStatistics(participants);
      var after := GetStatistics(participants + [p]);
      && after.totalConfirmed == before.totalConfirmed + 1
      && after.checkedInCount == before.checkedInCount + (if IsCheckedIn(p) then 1 else 0)
      && after.notCheckedInCount == before.notCheckedInCount + (if IsCheckedIn(p) then 0 else 1)
      && after.paidCount == before.paidCount + (if p.paymentStatus == Some(Paid) then 1 else 0)
      && after.unpaidCount == before.unpaidCount + (if p.paymentStatus == Some(Unpaid) then 1 else 0)
      && after.pendingCount == before.pendingCount + (if p.paymentStatus == Some(Pending) then 1 else 0)
  {
    var c := Filter(participants, IsReservationActive);
    FilterConcat(participants, [p], IsReservationActive);
    FilterUnfold([p], IsReservationActive);
    assert [p][1..] == [];
    assert Filter([p], IsReservationActive) == [p];
    CountAppended(c, p, IsCheckedIn);
    CountAppended(c, p, IsPaid);
    CountAppended(c, p, IsUnpaid);
    CountAppended(c, p, IsPending);
  }

  /** Appending one element adds one to a filtered count exactly when the
      element passes. */
  lemma CountAppended(c: seq<Reservation>, p: Reservation, q: Reservation -> bool)
    ensures |Filter(c + [p], q)| == |Filter(c, q)| + (if q(p) then 1 else 0)
  {
    FilterConcat(c, [p], q);
    FilterUnfold([p], q);
    assert [p][1..] == [];
  }

  // ---------------------------------------------------------------------
  // Actions

  /** What pressing "add" does. Without a loaded event nothing happens; the
      screen refuses on its own snapshot of the event when that shows no
      free seat; otherwise it submits a registration without notes for the
      chosen user to the reservation operation, which checks again. */
  datatype AddUserOutcome =
    | NoEventLoaded
    | AtCapacity
    | Submitted(result: Result<(Store, string), ReservationError>)

  function AddUserToEvent(st: Store, shown: Option<Event>, eventId: string, user: User, newId: string, now: Instant)
    : (r: AddUserOutcome)
    requires newId !in st.reservations
    ensures r.NoEventLoaded? <==> shown.None?
    ensures r.AtCapacity? <==> shown.Some? && IsEventFull(shown.value)
    ensures r.Submitted? ==>
      r.result == RegisterForEvent(st, ReservationCreateData(eventId, None), user.uid, user.email,
                                   user.displayName, newId, now)
  {
    if shown.None? then NoEventLoaded
    else if shown.value.registeredCount >= shown.value.capacity then AtCapacity
    else Submitted(RegisterForEvent(st, ReservationCreateData(eventId, None), user.uid, user.email,
                                    user.displayName, newId, now))
  }

  /** The screen's capacity check is advisory: when its snapshot is stale
      and the stored event has filled up meanwhile, the submitted
      registration is still refused. */
  lemma StaleSnapshotStillRefused(st: Store, shown: Event, eventId: string, user: User, newId: string, now: Instant)
    requires newId !in st.reservations
    requires !IsEventFull(shown)
    requires eventId in st.events && IsEventFull(st.events[eventId])
    ensures AddUserToEvent(st, Some(shown), eventId, user, newId, now).Submitted?
    ensures AddUserToEvent(st, Some(shown), eventId, user, newId, now).result.Err?
  {
  }

  /** What pressing "remove" does: nothing without a selected participant,
      otherwise the ordinary cancellation of that reservation, so the
      24-hour notice applies to administrators as well. */
  function RemoveParticipant(st: Store, toRemove: Option<Reservation>, now: Instant)
    : (r: Option<Result<Store, ReservationError>>)
    ensures r.None? <==> toRemove.None?
    ensures r.Some? ==> r.value == CancelRegistration(st, toRemove.value.id, now)
  {
    if toRemove.None? then None
    else Some(CancelRegistration(st, toRemove.value.id, now))
  }

  /** An administrator cannot remove a confirmed participant less than 24
      hours before the event. */
  lemma RemovalWithinNoticeRefused(st: Store, p: Reservation, now: Instant)
    requires p.id in st.reservations && st.reservations[p.id].status == Confirmed
    requires st.reservations[p.id].eventId in st.events
    requires st.events[st.reservations[p.id].eventId].date - now < CancellationNotice
    ensures RemoveParticipant(st, Some(p), now) == Some(Err(TooLateToCancel))
  {
  }

  /** The administrator signed in to the dashboard. */
  datatype SignedInUser = SignedInUser(uid: string, displayName: Option<string>)

  /** The payment dialog's fields; the transaction id and the notes hold ""
      when left empty. */
  datatype PaymentForm = PaymentForm(amount: int, paidWith: PaymentMethod, transactionId: string, notes: string)

  /** The payment a "record" press hands to the reservation service. */
  datatype PaymentSubmission = PaymentSubmission(
    reservationId: string,
    amount: int,
    paidWith: PaymentMethod,
    processedBy: string,
    processedByName: Option<string>,
    transactionId: Option<string>,
    notes: Option<string>)

  /** The guards of the payment dialog: a selected participant, a positive
      amount and a signed-in administrator, checked in that order. Empty
      optional texts are passed on as absent. */
  function RecordPayment(selected: Option<Reservation>, form: PaymentForm, signedIn: Option<SignedInUser>)
    : (r: Option<PaymentSubmission>)
    ensures r.Some? <==> selected.Some? && form.amount > 0 && signedIn.Some?
    ensures r.Some? ==>
      && r.value.reservationId == selected.value.id
      && r.value.amount == form.amount && r.value.amount > 0
      && r.value.paidWith == form.paidWith
      && r.value.processedBy == signedIn.value.uid
    ensures r.Some? ==>
      && (r.value.processedByName.Some? <==> signedIn.value.displayName.Some? && signedIn.value.displayName.value != "")
      && (r.value.processedByName.Some? ==> r.value.processedByName == signedIn.value.displayName)
      && (r.value.transactionId.Some? <==> form.transactionId != "")
      && (r.value.transactionId.Some? ==> r.value.transactionId.value == form.transactionId)
      && (r.value.notes.Some? <==> form.notes != "")
      && (r.value.notes.Some? ==> r.value.notes.value == form.notes)
  {
    if selected.None? || form.amount <= 0 then None
    else if signedIn.None? then None
    else
      var admin := signedIn.value;
      Some(PaymentSubmission(
        selected.value.id, form.amount, form.paidWith, admin.uid,
        NonEmpty(admin.displayName), NonEmpty(Some(form.transactionId)), NonEmpty(Some(form.notes))))
  }
}

=== FILE: event_service.dfy ===
/** The event collection and the service operations on it: creation, the
    registered-count reconciliation, partial update, deletion and the
    filtered, date-ordered queries.
 */
module EventService {
  import opened Wrappers
  import opened Instants
  import opened Sequences
  import opened EventModel

  /** The event collection: document key to document. */
  type Events = map<string, Event>

  /** Every document carries the key it is stored under. */
  ghost predicate WellKeyed(events: Events) {
    forall k :: k in events ==> events[k].id == k
  }

  datatype EventError = EventNotFound

  /** The session length written into every new event, in hours. */
  const DefaultDuration: int := 3

  datatype EventCreateData = EventCreateData(
    title: string,
    description: Option<string>,
    date: Instant,
    timeSlot: TimeSlot,
    capacity: int,
    location: Option<string>)

  /** A new event document stored under `newId`, which the store generates
      fresh. */
  function CreateEvent(events: Events, data: EventCreateData, adminUserId: string, newId: string, now: Instant): (r: Events)
    requires newId !in events
    ensures r.Keys == events.Keys + {newId}
    ensures forall k :: k in events ==> r[k] == events[k]
    ensures var e := r[newId];
      && e.id == newId
      && e.title == data.title && e.date == data.date
      && e.timeSlot == data.timeSlot && e.capacity == data.capacity
      && e.description == (if data.description.Some? then data.description.value else "")
      && e.location == (if data.location.Some? then data.location.value else "")
      && e.duration == 3
      && e.registeredCount == 0
      && e.status == Scheduled
      && e.createdBy == adminUserId
      && e.createdAt == now && e.updatedAt == now
    ensures WellKeyed(events) ==> WellKeyed(r)
  {
    var e := Event(
      newId, data.title, data.description.GetOr(""), data.date, data.timeSlot,
      DefaultDuration, data.capacity, 0, Scheduled, data.location.GetOr(""),
      adminUserId, now, now);
    events[newId := e]
  }

  /** A fresh event is full only when its capacity is not positive. */
  lemma NewEventFullIffNoCapacity(events: Events, data: EventCreateData, adminUserId: string, newId: string, now: Instant)
    requires newId !in events
    ensures IsEventFull(CreateEvent(events, data, adminUserId, newId, now)[newId]) <==> data.capacity <= 0
  {
  }

  /** The two events agree on everything except the registered count, the
      status and the update time. */
  ghost predicate SameDefinition(a: Event, b: Event) {
    && a.id == b.id && a.title == b.title && a.description == b.description
    && a.date == b.date && a.timeSlot == b.timeSlot && a.duration == b.duration
    && a.capacity == b.capacity && a.location == b.location
    && a.createdBy == b.createdBy && a.createdAt == b.createdAt
  }

  /** Writes a new registered count and the status derived from it. The
      status is recomputed from scratch, so a cancelled or completed event
      becomes FULL or SCHEDULED as well. */
  function UpdateRegisteredCount(events: Events, eventId: string, count: int, now: Instant): (r: Result<Events, EventError>)
    ensures r.Err? <==> eventId !in events
    ensures r.Err? ==> r.error == EventNotFound
    ensures r.Ok? ==>
      && r.value.Keys == events.Keys
      && (forall k :: k in events && k != eventId ==> r.value[k] == events[k])
      && SameDefinition(r.value[eventId], events[eventId])
      && r.value[eventId].registeredCount == count
      && r.value[eventId].updatedAt == now
      && (r.value[eventId].status == Full <==> IsEventFull(r.value[eventId]))
      && (r.value[eventId].status == Full || r.value[eventId].status == Scheduled)
    ensures r.Ok? && WellKeyed(events) ==> WellKeyed(r.value)
  {
    if eventId !in events then Err(EventNotFound)
    else
      var e := events[eventId];
      var newStatus := if count >= e.capacity then Full else Scheduled;
      Ok(events[eventId := e.(registeredCount := count, status := newStatus, updatedAt := now)])
  }

  /** The status written does not depend on the status the event had. */
  lemma RecountIgnoresPreviousStatus(events: Events, eventId: string, count: int, now: Instant, s: EventStatus)
    requires eventId in events
    ensures var other := events[eventId := events[eventId].(status := s)];
      && UpdateRegisteredCount(events, eventId, count, now).Ok?
      && UpdateRegisteredCount(other, eventId, count, now).Ok?
      && UpdateRegisteredCount(events, eventId, count, now).value[eventId].status
         == UpdateRegisteredCount(other, eventId, count, now).value[eventId].status
  {
  }

  /** The fields an admin may change; `None` means "not supplied". */
  datatype EventUpdateData = EventUpdateData(
    title: Option<string>,
    description: Option<string>,
    date: Option<Instant>,
    timeSlot: Option<TimeSlot>,
    capacity: Option<int>,
    status: Option<EventStatus>,
    location: Option<string>)

  /** Overwrites the supplied fields and the update time. Updating a missing
      document is rejected by the store. */
  function UpdateEvent(events: Events, eventId: string, upd: EventUpdateData, now: Instant): (r: Result<Events, EventError>)
    ensures r.Err? <==> eventId !in events
    ensures r.Ok? ==>
      && r.value.Keys == events.Keys
      && (forall k :: k in events && k != eventId ==> r.value[k] == events[k])
      && var old_ := events[eventId];
         var new_ := r.value[eventId];
      && new_.title == (if upd.title.Some? then upd.title.value else old_.title)
      && new_.description == (if upd.description.Some? then upd.description.value else old_.description)
      && new_.date == (if upd.date.Some? then upd.date.value else old_.date)
      && new_.timeSlot == (if upd.timeSlot.Some? then upd.timeSlot.value else old_.timeSlot)
      && new_.capacity == (if upd.capacity.Some? then upd.capacity.value else old_.capacity)
      && new_.status == (if upd.status.Some? then upd.status.value else old_.status)
      && new_.location == (if upd.location.Some? then upd.location.value else old_.location)
      && new_.id == old_.id && new_.duration == old_.duration
      && new_.registeredCount == old_.registeredCount
      && new_.createdBy == old_.createdBy && new_.createdAt == old_.createdAt
      && new_.updatedAt == now
  {
    if eventId !in events then Err(EventNotFound)
    else
      var e := events[eventId];
      Ok(events[eventId := e.(
        title := upd.title.GetOr(e.title),
        description := upd.description.GetOr(e.description),
        date := upd.date.GetOr(e.date),
        timeSlot := upd.timeSlot.GetOr(e.timeSlot),
        capacity := upd.capacity.GetOr(e.capacity),
        status := upd.status.GetOr(e.status),
        location := upd.location.GetOr(e.location),
        updatedAt := now)])
  }

  /** Removes the event document only; deleting a missing document is a
      no-op. */
  function DeleteEvent(events: Events, eventId: string): (r: Events)
    ensures r.Keys == events.Keys - {eventId}
    ensures forall k :: k in r ==> r[k] == events[k]
  {
    events - {eventId}
  }

  /** The optional constraints of an event query. `limit` is accepted but the
      query never applies it. */
  datatype EventQueryOptions = EventQueryOptions(
    startDate: Option<Instant>,
    endDate: Option<Instant>,
    status: Option<EventStatus>,
    timeSlot: Option<TimeSlot>,
    limit: Option<int>)

  /** The event satisfies every supplied constraint; date bounds are
      inclusive. */
  predicate MatchesQuery(e: Event, o: EventQueryOptions) {
    && (o.startDate.None? || e.date >= o.startDate.value)
    && (o.endDate.None? || e.date <= o.endDate.value)
    && (o.status.None? || e.status == o.status.value)
    && (o.timeSlot.None? || e.timeSlot == o.timeSlot.value)
  }

  function DateOf(e: Event): int {
    e.date
  }

  /** The query over a listing `all` of the event collection: the matching
      documents, ordered by date ascending. */
  function GetEvents(all: seq<Event>, o: EventQueryOptions): (r: seq<Event>)
    ensures SortedBy(r, DateOf)
    ensures forall e :: multiset(r)[e] == if MatchesQuery(e, o) then multiset(all)[e] else 0
    ensures forall e :: e in r <==> e in all && MatchesQuery(e, o)
  {
    var matching := Filter(all, e => MatchesQuery(e, o));
    var r := SortByKey(matching, DateOf);
    assert forall e :: e in r <==> e in multiset(r);
    r
  }

  /** The `limit` option has no effect: with or without it the same events
      come back, as many times each. */
  lemma LimitIsIgnored(all: seq<Event>, o: EventQueryOptions, limit: Option<int>)
    ensures multiset(GetEvents(all, o.(limit := limit))) == multiset(GetEvents(all, o))
    ensures |GetEvents(all, o.(limit := limit))| == |GetEvents(all, o)|
  {
    var a := GetEvents(all, o.(limit := limit));
    var b := GetEvents(all, o);
    assert forall e :: multiset(a)[e] == multiset(b)[e];
    assert multiset(a) == multiset(b);
    assert |a| == |multiset(a)|;
  }

  /** Scheduled events from the start of today on, by date. */
  function GetUpcomingEvents(all: seq<Event>, now: Instant, limit: Option<int>): (r: seq<Event>)
    ensures SortedBy(r, DateOf)
    ensures forall e :: e in r <==> e in all && e.date >= StartOfDay(now) && e.status == Scheduled
    ensures forall e ::
              multiset(r)[e] == if e.date >= StartOfDay(now) && e.status == Scheduled then multiset(all)[e] else 0
  {
    GetEvents(all, EventQueryOptions(Some(StartOfDay(now)), None, Some(Scheduled), None, limit))
  }
}

=== FILE: instants.dfy ===
/** Instants as integer milliseconds since the epoch, and the day arithmetic
    the application does with `setHours(0, 0, 0, 0)` and `setHours(23, 59, 59, 999)`.
    Days are counted in UTC; the local time-zone offset is not modelled.
 */
module Instants {

  /** Milliseconds since the epoch (`Date.prototype.getTime()`). */
  type Instant = int

  const MsPerHour: int := 1000 * 60 * 60
  const MsPerDay: int := 24 * MsPerHour

  /** The midnight that starts the day of `t`: `setHours(0, 0, 0, 0)`. */
  function StartOfDay(t: Instant): (r: Instant)
    ensures r <= t < r + MsPerDay
    ensures r % MsPerDay == 0
  {
    t - t % MsPerDay
  }

  /** The last millisecond of the day of `t`: `setHours(23, 59, 59, 999)`. */
  function EndOfDay(t: Instant): (r: Instant)
    ensures t <= r < t + MsPerDay
    ensures (r + 1) % MsPerDay == 0
  {
    StartOfDay(t) + MsPerDay - 1
  }

  /** A day boundary at or before `t` is at or before the start of `t`'s day. */
  lemma {:induction false} BoundaryBeforeStart(m: Instant, t: Instant)
    requires m % MsPerDay == 0
    ensures m <= t <==> m <= StartOfDay(t)
  {
    var s := StartOfDay(t);
    var k := m / MsPerDay;
    var j := s / MsPerDay;
    assert m == k * MsPerDay;
    assert s == j * MsPerDay;
    if m <= t {
      assert k * MsPerDay < (j + 1) * MsPerDay;
      assert k <= j;
    }
  }

  /** Comparing with the start of a day is a comparison of days. */
  lemma OnOrAfterStartOfDay(t: Instant, a: Instant)
    ensures t >= StartOfDay(a) <==> StartOfDay(t) >= StartOfDay(a)
  {
    BoundaryBeforeStart(StartOfDay(a), t);
  }

  /** Comparing with the end of a day is a comparison of days. */
  lemma OnOrBeforeEndOfDay(t: Instant, b: Instant)
    ensures t <= EndOfDay(b) <==> StartOfDay(t) <= StartOfDay(b)
  {
    BoundaryBeforeStart(StartOfDay(b) + MsPerDay, t);
  }
}

=== FILE: provisioning.dfy ===
/** The two server-side endpoints through which an administrator creates
    accounts, one keyed by email and one by phone number. Each checks the
    caller, then the request's fields in a fixed order, and on success
    creates an authentication account and the matching user document.
    Failures are HTTPS errors with a code and a message.
 */
module Provisioning {
  import opened Wrappers
  import opened Instants
  import opened Text
  import opened UserModel

  /** A request field as it arrives: missing (or null), a string, or a
      value of some other type. */
  datatype Field = Absent | Str(s: string) | Other

  /** The caller: the authenticated uid, if any, and the role stored in the
      caller's user document, if the document exists and has a role. */
  datatype Caller = Caller(authUid: Option<string>, storedRole: Option<string>)

  datatype HttpsError = HttpsError(code: string, message: string)

  const NotSignedIn := HttpsError("unauthenticated", "Must be authenticated to create users")
  const NotAdmin := HttpsError("permission-denied", "Only admins can create users")
  const EmailRequired := HttpsError("invalid-argument", "Email is required")
  const PasswordTooShort := HttpsError("invalid-argument", "Password must be at least 6 characters")
  const DisplayNameRequired := HttpsError("invalid-argument", "Display name is required")
  const RoleInvalid := HttpsError("invalid-argument", "Role must be either \"admin\" or \"guest\"")
  const PhoneRequired := HttpsError("invalid-argument", "Phone number is required")
  const PhoneNotE164 := HttpsError("invalid-argument", "Phone number must be in E.164 format (e.g., +1234567890)")

  const MinPasswordLength := 6

  /** Only a signed-in caller whose own document says "admin" may create users. */
  predicate IsAdminCaller(c: Caller) {
    c.authUid.Some? && c.storedRole == Some("admin")
  }

  /** A non-empty string: a truthy value of string type. */
  predicate IsText(f: Field) {
    f.Str? && f.s != ""
  }

  predicate IsPassword(f: Field) {
    f.Str? && |f.s| >= MinPasswordLength
  }

  /** The role named by the field, if it names one exactly. */
  function ParseRole(f: Field): (r: Option<Role>)
    ensures r.Some? <==> f == Str("admin") || f == Str("guest")
    ensures r.Some? ==> f == Str(RoleName(r.value))
  {
    if f == Str("admin") then Some(Admin)
    else if f == Str("guest") then Some(Guest)
    else None
  }

  /** The phone-number format: a plus sign, a digit from 1 to 9, then one to
      fourteen further ASCII digits. */
  predicate IsE164(s: string) {
    && 3 <= |s| <= 16
    && s[0] == '+'
    && '1' <= s[1] <= '9'
    && forall i :: 2 <= i < |s| ==> IsDigit(s[i])
  }

  /** The endpoint's regular-expression test `/^\+[1-9]\d{1,14}$/` as a
      single left-to-right scan. `CreateUserWithPhone` states the test through
      `IsE164`; this scan is the executable form and decides exactly it. */
  method MatchE164(s: string) returns (ok: bool)
    ensures ok <==> IsE164(s)
  {
    if |s| < 3 || |s| > 16 || s[0] != '+' || !('1' <= s[1] <= '9') {
      return false;
    }
    var i := 2;
    while i < |s|
      invariant 2 <= i <= |s|
      invariant forall j :: 2 <= j < i ==> IsDigit(s[j])
    {
      if !IsDigit(s[i]) {
        return false;
      }
      i := i + 1;
    }
    return true;
  }

  /** Numbers from the format's boundaries. */
  lemma E164Examples()
    ensures IsE164("+1234567890")
    ensures IsE164("+12")
    ensures IsE164("+123456789012345")
    ensures !IsE164("+1")
    ensures !IsE164("+1234567890123456")
    ensures !IsE164("+0123456789")
    ensures !IsE164("1234567890")
    ensures !IsE164("+1 234567")
  {
    assert "+1234567890123456"[..] == "+1234567890123456";
    assert "+1 234567"[2] == ' ';
  }

  /** The authentication account to create. */
  datatype AuthAccount = AuthAccount(
    email: Option<string>,
    phoneNumber: Option<string>,
    password: Option<string>,
    displayName: string)

  /** An account and its user document, created under the uid `uid` the
      authentication service assigns. */
  datatype Provisioned = Provisioned(account: AuthAccount, doc: User, emailNotifications: bool)

  datatype EmailRequest = EmailRequest(email: Field, password: Field, displayName: Field, role: Field, phone: Option<string>)

  /** The email endpoint. Rejections, in order: not signed in, not an
      administrator, no email, a password shorter than six characters, no
      display name, a role other than "admin" or "guest". */
  function CreateUserWithEmail(c: Caller, req: EmailRequest, uid: string, now: Instant)
    : (r: Result<Provisioned, HttpsError>)
    ensures c.authUid.None? ==> r == Err(NotSignedIn)
    ensures c.authUid.Some? && !IsAdminCaller(c) ==> r == Err(NotAdmin)
    ensures IsAdminCaller(c) && !IsText(req.email) ==> r == Err(EmailRequired)
    ensures IsAdminCaller(c) && IsText(req.email) && !IsPassword(req.password) ==> r == Err(PasswordTooShort)
    ensures (IsAdminCaller(c) && IsText(req.email) && IsPassword(req.password) && !IsText(req.displayName))
            ==> r == Err(DisplayNameRequired)
    ensures (IsAdminCaller(c) && IsText(req.email) && IsPassword(req.password) && IsText(req.displayName)
             && ParseRole(req.role).None?) ==> r == Err(RoleInvalid)
    ensures r.Ok? <==> IsAdminCaller(c) && IsText(req.email) && IsPassword(req.password)
                       && IsText(req.displayName) && ParseRole(req.role).Some?
    ensures r.Ok? ==>
      var p := r.value;
      && Str(p.doc.email) == req.email
      && p.account.password.Some?
      && Str(p.account.password.value) == req.password && |p.account.password.value| >= MinPasswordLength
      && p.account.email == Some(p.doc.email)
      && (p.account.phoneNumber.Some? <==> req.phone.Some? && req.phone.value != "")
      && (p.account.phoneNumber.Some? ==> p.account.phoneNumber == req.phone)
      && p.doc.uid == uid
      && Str(RoleName(p.doc.role)) == req.role
      && Some(p.account.displayName) == p.doc.displayName && Str(p.account.displayName) == req.displayName
      && p.doc.phone == Some(req.phone.GetOr(""))
      && !p.doc.disabled && p.emailNotifications
      && p.doc.createdAt == now && p.doc.updatedAt == now
  {
    if c.authUid.None? then Err(NotSignedIn)
    else if c.storedRole != Some("admin") then Err(NotAdmin)
    else if !req.email.Str? || req.email.s == "" then Err(EmailRequired)
    else if !req.password.Str? || req.password.s == "" || |req.password.s| < MinPasswordLength then Err(PasswordTooShort)
    else if !req.displayName.Str? || req.displayName.s == "" then Err(DisplayNameRequired)
    else if req.role != Str("admin") && req.role != Str("guest") then Err(RoleInvalid)
    else
      var role := if req.role == Str("admin") then Admin else Guest;
      var account := AuthAccount(Some(req.email.s), NonEmpty(req.phone), Some(req.password.s), req.displayName.s);
      var doc := User(uid, req.email.s, role, Some(req.displayName.s), Some(req.phone.GetOr("")), false, now, now);
      Ok(Provisioned(account, doc, true))
  }

  datatype PhoneRequest = PhoneRequest(phoneNumber: Field, displayName: Field, role: Field, password: Option<string>)

  /** The phone endpoint. Rejections, in order: not signed in, not an
      administrator, no phone number, a number not in the phone-number
      format, no display name, a role other than "admin" or "guest". The
      number doubles as the document's email and phone. */
  function CreateUserWithPhone(c: Caller, req: PhoneRequest, uid: string, now: Instant)
    : (r: Result<Provisioned, HttpsError>)
    ensures c.authUid.None? ==> r == Err(NotSignedIn)
    ensures c.authUid.Some? && !IsAdminCaller(c) ==> r == Err(NotAdmin)
    ensures IsAdminCaller(c) && !IsText(req.phoneNumber) ==> r == Err(PhoneRequired)
    ensures IsAdminCaller(c) && IsText(req.phoneNumber) && !IsE164(req.phoneNumber.s) ==> r == Err(PhoneNotE164)
    ensures (IsAdminCaller(c) && IsText(req.phoneNumber) && IsE164(req.phoneNumber.s) && !IsText(req.displayName))
            ==> r == Err(DisplayNameRequired)
    ensures (IsAdminCaller(c) && IsText(req.phoneNumber) && IsE164(req.phoneNumber.s) && IsText(req.displayName)
             && ParseRole(req.role).None?) ==> r == Err(RoleInvalid)
    ensures r.Ok? <==> IsAdminCaller(c) && req.phoneNumber.Str? && IsE164(req.phoneNumber.s)
                       && IsText(req.displayName) && ParseRole(req.role).Some?
    ensures r.Ok? ==>
      var p := r.value;
      && p.account.phoneNumber == Some(p.doc.email)
      && IsE164(p.doc.email)
      && Str(p.doc.email) == req.phoneNumber
      && p.doc.phone == Some(p.doc.email)
      && p.account.email.None?
      && p.account.password == NonEmpty(req.password)
      && p.doc.uid == uid
      && Str(RoleName(p.doc.role)) == req.role
      && Some(p.account.displayName) == p.doc.displayName && Str(p.account.displayName) == req.displayName
      && !p.doc.disabled && !p.emailNotifications
      && p.doc.createdAt == now && p.doc.updatedAt == now
  {
    if c.authUid.None? then Err(NotSignedIn)
    else if c.storedRole != Some("admin") then Err(NotAdmin)
    else if !req.phoneNumber.Str? || req.phoneNumber.s == "" then Err(PhoneRequired)
    else if !IsE164(req.phoneNumber.s) then Err(PhoneNotE164)
    else if !req.displayName.Str? || req.displayName.s == "" then Err(DisplayNameRequired)
    else if req.role != Str("admin") && req.role != Str("guest") then Err(RoleInvalid)
    else
      var number := req.phoneNumber.s;
      var role := if req.role == Str("admin") then Admin else Guest;
      var account := AuthAccount(None, Some(number), NonEmpty(req.password), req.displayName.s);
      var doc := User(uid, number, role, Some(req.displayName.s), Some(number), false, now, now);
      Ok(Provisioned(account, doc, false))
  }
}

=== FILE: reservation_model.dfy ===
/** The reservation record, its enumerations and the predicates defined next
    to them: active, cancellable (the 24-hour rule), checked in, paid, and the
    display labels of the payment enumerations.
 */
module ReservationModel {
  import opened Wrappers
  import opened Instants

  datatype ReservationStatus = Confirmed | Cancelled | Waitlist

  datatype PaymentStatus = Paid | Unpaid | Pending | Refunded

  datatype PaymentMethod = Cash | CreditCard | DebitCard | BankTransfer | DigitalWallet | Other

  datatype CheckInRecord = CheckInRecord(
    checkedInAt: Instant,
    checkedInBy: string,
    checkedInByName: Option<string>)

  /** `amount` is in the smallest currency unit; `paidWith` is the application's
      `method` field (a reserved word here). */
  datatype PaymentRecord = PaymentRecord(
    amount: int,
    paidWith: PaymentMethod,
    paidAt: Instant,
    processedBy: string,
    processedByName: Option<string>,
    transactionId: Option<string>,
    notes: Option<string>)

  /** A reservation document. `paymentStatus` is `None` when the document has
      no such field, which is how registration writes it. */
  datatype Reservation = Reservation(
    id: string,
    eventId: string,
    userId: string,
    userEmail: string,
    userDisplayName: Option<string>,
    status: ReservationStatus,
    notes: Option<string>,
    createdAt: Instant,
    updatedAt: Instant,
    checkIn: Option<CheckInRecord>,
    paymentStatus: Option<PaymentStatus>,
    payment: Option<PaymentRecord>)

  /** Only a confirmed reservation holds a seat. */
  predicate IsReservationActive(r: Reservation) {
    r.status == Confirmed
  }

  /** The shortest notice, in milliseconds, with which a reservation may
      still be cancelled: 24 hours. */
  const CancellationNotice: int := 24 * MsPerHour

  /** A reservation can be cancelled when it is confirmed and the event is at
      least 24 hours away. The application divides the millisecond difference by
      the length of an hour and compares with 24; on integers that is the
      comparison below. */
  predicate CanCancelReservation(r: Reservation, eventDate: Instant, now: Instant) {
    r.status == Confirmed && eventDate - now >= CancellationNotice
  }

  /** Exactly 24 hours of notice is enough; one millisecond less is not. */
  lemma CancellationBoundary(r: Reservation, eventDate: Instant)
    requires r.status == Confirmed
    ensures CanCancelReservation(r, eventDate, eventDate - 86_400_000)
    ensures !CanCancelReservation(r, eventDate, eventDate - 86_399_999)
  {
  }

  /** 23h59m of notice is refused and 24h01m accepted. */
  lemma CancellationMinuteExamples(r: Reservation, eventDate: Instant)
    requires r.status == Confirmed
    ensures !CanCancelReservation(r, eventDate, eventDate - (23 * 60 + 59) * 60 * 1000)
    ensures CanCancelReservation(r, eventDate, eventDate - (24 * 60 + 1) * 60 * 1000)
  {
  }

  /** A reservation that is not confirmed can never be cancelled. */
  lemma OnlyConfirmedCancellable(r: Reservation, eventDate: Instant, now: Instant)
    requires r.status != Confirmed
    ensures !CanCancelReservation(r, eventDate, now)
  {
  }

  /** What is cancellable now was cancellable at every earlier moment. */
  lemma CancellableEarlier(r: Reservation, eventDate: Instant, now: Instant, earlier: Instant)
    requires earlier <= now
    requires CanCancelReservation(r, eventDate, now)
    ensures CanCancelReservation(r, eventDate, earlier)
  {
  }

  /** Presence of a check-in record is the only check-in signal. */
  predicate IsCheckedIn(r: Reservation) {
    r.checkIn.Some?
  }

  /** Paid means the payment status says so, whatever the payment record. */
  predicate IsPaid(r: Reservation) {
    r.paymentStatus == Some(Paid)
  }

  /** Payment record and paid status are independent facts. */
  lemma PaidIndependentOfRecord(r: Reservation, p: Option<PaymentRecord>)
    ensures IsPaid(r.(payment := p)) == IsPaid(r)
    ensures IsCheckedIn(r.(payment := p)) == IsCheckedIn(r)
  {
  }

  function PaymentStatusLabel(s: PaymentStatus): string {
    match s
    case Paid => "Paid"
    case Unpaid => "Unpaid"
    case Pending => "Pending"
    case Refunded => "Refunded"
  }

  function PaymentMethodLabel(m: PaymentMethod): string {
    match m
    case Cash => "Cash"
    case CreditCard => "Credit Card"
    case DebitCard => "Debit Card"
    case BankTransfer => "Bank Transfer"
    case DigitalWallet => "Digital Wallet"
    case Other => "Other"
  }

  /** Distinct payment statuses get distinct, non-empty labels. */
  lemma PaymentStatusLabelInjective(a: PaymentStatus, b: PaymentStatus)
    ensures PaymentStatusLabel(a) != []
    ensures PaymentStatusLabel(a) == PaymentStatusLabel(b) ==> a == b
  {
  }

  /** Distinct payment methods get distinct, non-empty labels. */
  lemma PaymentMethodLabelInjective(a: PaymentMethod, b: PaymentMethod)
    ensures PaymentMethodLabel(a) != []
    ensures PaymentMethodLabel(a) == PaymentMethodLabel(b) ==> a == b
  {
  }
}

=== FILE: reservation_service.dfy ===
/** Registration and cancellation: the two operations that write a
    reservation and then reconcile the event's registered count. Each is one
    sequential step over the store; the invariant that ties the stored count
    to the confirmed reservations is proved to survive both.
 */
module ReservationService {
  import opened Wrappers
  import opened Instants
  import opened Sequences
  import opened EventModel
  import opened ReservationModel
  import opened EventService

  /** The reservation collection: document key to document. */
  type Reservations = map<string, Reservation>

  /** The two collections the operations read and write. */
  datatype Store = Store(events: Events, reservations: Reservations)

  datatype ReservationError =
    | DuplicateReservation
    | FullOrUnavailable
    | EventMissing
    | ReservationMissing
    | ReservationInactive
    | TooLateToCancel

  /** The message each rejection carries. */
  function Message(e: ReservationError): string {
    match e
    case DuplicateReservation => "You already have a reservation for this event"
    case FullOrUnavailable => "Event is full or not available"
    case EventMissing => "Event not found"
    case ReservationMissing => "Reservation not found"
    case ReservationInactive => "Reservation is not active"
    case TooLateToCancel => "Cannot cancel reservation within 24 hours of event"
  }

  /** A caller can tell every rejection apart by its message. */
  lemma MessagesDistinct(a: ReservationError, b: ReservationError)
    ensures Message(a) == Message(b) ==> a == b
  {
  }

  /** The user already holds a confirmed reservation for the event; cancelled
      and waitlisted reservations do not count. */
  predicate CheckExistingReservation(res: Reservations, userId: string, eventId: string) {
    exists k :: k in res && res[k].userId == userId && res[k].eventId == eventId && res[k].status == Confirmed
  }

  /** The event exists and has a seat left. A missing event is reported as
      unavailable. */
  function CheckEventAvailability(events: Events, eventId: string): (r: bool)
    ensures r <==> eventId in events && !IsEventFull(events[eventId])
  {
    if eventId !in events then false
    else events[eventId].registeredCount < events[eventId].capacity
  }

  /** The keys of the confirmed reservations held for `eventId`. */
  function ConfirmedIds(res: Reservations, eventId: string): set<string> {
    set k | k in res && res[k].eventId == eventId && res[k].status == Confirmed
  }

  // ---------------------------------------------------------------------
  // Registration

  datatype ReservationCreateData = ReservationCreateData(eventId: string, notes: Option<string>)

  /** The document registration writes. It has no payment status field. */
  function NewReservation(id: string, data: ReservationCreateData, userId: string, userEmail: string,
                          userDisplayName: Option<string>, now: Instant): Reservation
  {
    Reservation(
      id, data.eventId, userId, userEmail, Some(userDisplayName.GetOr("")), Confirmed,
      Some(data.notes.GetOr("")), now, now, None, None, None)
  }

  /** Registers a user for an event. Checks, in this order: no confirmed
      reservation of the user for the event, a seat is available, the event
      exists. Then stores a confirmed reservation under `newId` (a fresh key
      the store generates) and writes the event's count plus one. Returns the
      new store and the reservation's key. */
  function RegisterForEvent(st: Store, data: ReservationCreateData, userId: string, userEmail: string,
                            userDisplayName: Option<string>, newId: string, now: Instant)
    : (r: Result<(Store, string), ReservationError>)
    requires newId !in st.reservations
    ensures CheckExistingReservation(st.reservations, userId, data.eventId) ==> r == Err(DuplicateReservation)
    ensures (!CheckExistingReservation(st.reservations, userId, data.eventId)
             && !CheckEventAvailability(st.events, data.eventId)) ==> r == Err(FullOrUnavailable)
    ensures r.Ok? <==> !CheckExistingReservation(st.reservations, userId, data.eventId)
                       && data.eventId in st.events && !IsEventFull(st.events[data.eventId])
    ensures r.Ok? ==>
      var (st', key) := r.value;
      var eid := data.eventId;
      && key == newId
      && st'.reservations.Keys == st.reservations.Keys + {newId}
      && (forall k :: k in st.reservations ==> st'.reservations[k] == st.reservations[k])
      && var nr := st'.reservations[newId];
      && nr.id == newId && nr.eventId == eid && nr.userId == userId && nr.userEmail == userEmail
      && nr.status == Confirmed
      && nr.userDisplayName == Some(if userDisplayName.Some? then userDisplayName.value else "")
      && nr.notes == Some(if data.notes.Some? then data.notes.value else "")
      && nr.createdAt == now && nr.updatedAt == now
      && nr.checkIn.None? && nr.paymentStatus.None? && nr.payment.None?
      && st'.events.Keys == st.events.Keys
      && (forall k :: k in st.events && k != eid ==> st'.events[k] == st.events[k])
      && SameDefinition(st'.events[eid], st.events[eid])
      && st'.events[eid].registeredCount == st.events[eid].registeredCount + 1
      && st'.events[eid].registeredCount <= st'.events[eid].capacity
      && (st'.events[eid].status == Full <==> IsEventFull(st'.events[eid]))
  {
    if CheckExistingReservation(st.reservations, userId, data.eventId) then Err(DuplicateReservation)
    else if !CheckEventAvailability(st.events, data.eventId) then Err(FullOrUnavailable)
    else if data.eventId !in st.events then Err(EventMissing)
    else
      var event := st.events[data.eventId];
      var reservation := NewReservation(newId, data, userId, userEmail, userDisplayName, now);
      var counted := UpdateRegisteredCount(st.events, data.eventId, event.registeredCount + 1, now);
      Ok((Store(counted.value, st.reservations[newId := reservation]), newId))
  }

  // ---------------------------------------------------------------------
  // Cancellation

  /** Cancels a reservation. Checks, in this order: the reservation exists,
      it is confirmed, its event exists, the event is at least 24 hours away.
      Then marks the reservation cancelled and writes the event's count minus
      one, floored at zero. */
  function CancelRegistration(st: Store, reservationId: string, now: Instant): (r: Result<Store, ReservationError>)
    ensures reservationId !in st.reservations ==> r == Err(ReservationMissing)
    ensures reservationId in st.reservations && st.reservations[reservationId].status != Confirmed
            ==> r == Err(ReservationInactive)
    ensures reservationId in st.reservations && st.reservations[reservationId].status == Confirmed
            && st.reservations[reservationId].eventId !in st.events
            ==> r == Err(EventMissing)
    ensures reservationId in st.reservations && st.reservations[reservationId].status == Confirmed
            && st.reservations[reservationId].eventId in st.events
            && !CanCancelReservation(st.reservations[reservationId], st.events[st.reservations[reservationId].eventId].date, now)
            ==> r == Err(TooLateToCancel)
    ensures r.Ok? <==>
      && reservationId in st.reservations
      && st.reservations[reservationId].eventId in st.events
      && CanCancelReservation(st.reservations[reservationId], st.events[st.reservations[reservationId].eventId].date, now)
    ensures r.Ok? ==>
      var before := st.reservations[reservationId];
      var eid := before.eventId;
      var st' := r.value;
      && st'.reservations.Keys == st.reservations.Keys
      && (forall k :: k in st.reservations && k != reservationId ==> st'.reservations[k] == st.reservations[k])
      && st'.reservations[reservationId].status == ReservationStatus.Cancelled
      && st'.reservations[reservationId].updatedAt == now
      && st'.reservations[reservationId].(status := before.status, updatedAt := before.updatedAt) == before
      && st'.events.Keys == st.events.Keys
      && (forall k :: k in st.events && k != eid ==> st'.events[k] == st.events[k])
      && SameDefinition(st'.events[eid], st.events[eid])
      && st'.events[eid].registeredCount >= 0
      && st'.events[eid].registeredCount
         == (if st.events[eid].registeredCount >= 1 then st.events[eid].registeredCount - 1 else 0)
      && (st'.events[eid].status == Full <==> IsEventFull(st'.events[eid]))
  {
    if reservationId !in st.reservations then Err(ReservationMissing)
    else
      var reservation := st.reservations[reservationId];
      if reservation.status != Confirmed then Err(ReservationInactive)
      else if reservation.eventId !in st.events then Err(EventMissing)
      else
        var event := st.events[reservation.eventId];
        if !CanCancelReservation(reservation, event.date, now) then Err(TooLateToCancel)
        else
          var reservations' := st.reservations[reservationId := reservation.(status := ReservationStatus.Cancelled, updatedAt := now)];
          var newCount := if event.registeredCount - 1 > 0 then event.registeredCount - 1 else 0;
          var counted := UpdateRegisteredCount(st.events, reservation.eventId, newCount, now);
          Ok(Store(counted.value, reservations'))
  }

  // ---------------------------------------------------------------------
  // Client-side status filtering of fetched reservations

  /** With `activeOnly`, the confirmed reservations in their fetched order;
      otherwise all of them. */
  function ActiveOnly(rs: seq<Reservation>, activeOnly: bool): (r: seq<Reservation>)
    ensures !activeOnly ==> r == rs
    ensures activeOnly ==> IsSubsequence(r, rs)
    ensures activeOnly ==> forall x :: x in r <==> x in rs && x.status == Confirmed
    ensures activeOnly ==> forall x :: multiset(r)[x] == if x.status == Confirmed then multiset(rs)[x] else 0
  {
    if activeOnly then Filter(rs, IsReservationActive) else rs
  }

  function CreatedAt(r: Reservation): int {
    r.createdAt
  }

  function NewestFirst(r: Reservation): int {
    -r.createdAt
  }

  /** A user's reservations, newest first, over a listing `all` of the
      reservation collection. */
  function GetUserReservations(all: seq<Reservation>, userId: string, activeOnly: bool): (r: seq<Reservation>)
    ensures forall x :: x in r <==> x in all && x.userId == userId && (activeOnly ==> x.status == Confirmed)
    ensures forall x ::
              multiset(r)[x] == if x.userId == userId && (activeOnly ==> x.status == Confirmed) then multiset(all)[x] else 0
    ensures forall i, j :: 0 <= i < j < |r| ==> r[i].createdAt >= r[j].createdAt
  {
    var byUser := (x: Reservation) => x.userId == userId;
    var mine := SortByKey(Filter(all, byUser), NewestFirst);
    forall x ensures x in mine <==> x in all && x.userId == userId {
      SortKeepsMembers(Filter(all, byUser), NewestFirst, x);
    }
    var r := ActiveOnly(mine, activeOnly);
    assert SortedBy(r, NewestFirst) by {
      if activeOnly { SubsequenceKeepsOrder(r, mine, NewestFirst); }
    }
    r
  }

  /** An event's reservations, oldest first, over a listing `all` of the
      reservation collection. */
  function GetEventReservations(all: seq<Reservation>, eventId: string, activeOnly: bool): (r: seq<Reservation>)
    ensures forall x :: x in r <==> x in all && x.eventId == eventId && (activeOnly ==> x.status == Confirmed)
    ensures forall x ::
              multiset(r)[x] == if x.eventId == eventId && (activeOnly ==> x.status == Confirmed) then multiset(all)[x] else 0
    ensures SortedBy(r, CreatedAt)
  {
    var forEvent := (x: Reservation) => x.eventId == eventId;
    var theirs := SortByKey(Filter(all, forEvent), CreatedAt);
    forall x ensures x in theirs <==> x in all && x.eventId == eventId {
      SortKeepsMembers(Filter(all, forEvent), CreatedAt, x);
    }
    var r := ActiveOnly(theirs, activeOnly);
    assert SortedBy(r, CreatedAt) by {
      if activeOnly { SubsequenceKeepsOrder(r, theirs, CreatedAt); }
    }
    r
  }
}

=== FILE: sequences.dfy ===
/** Sequence operations shared by every read-side projection of the model:
    `Array.prototype.filter`, order-preserving subsequences, counting by a
    predicate and a stable sort by an integer key (the ordering a store
    query or `Array.prototype.sort` with a numeric comparator produces).
 */
module Sequences {

  /** `a` can be obtained from `b` by deleting elements: `a` keeps the
      relative order of the elements it takes from `b`. */
  ghost predicate IsSubsequence<T>(a: seq<T>, b: seq<T>)
    decreases |b|
  {
    || a == []
    || (&& b != []
        && ((a[0] == b[0] && IsSubsequence(a[1..], b[1..])) || IsSubsequence(a, b[1..])))
  }

  /** The elements of `s` that satisfy `p`, in their original order. */
  function Filter<T(!new)>(s: seq<T>, p: T -> bool): (r: seq<T>)
    ensures |r| <= |s|
    ensures IsSubsequence(r, s)
    ensures forall x :: multiset(r)[x] == if p(x) then multiset(s)[x] else 0
    ensures forall x :: x in r <==> x in s && p(x)
  {
    if s == [] then []
    else if p(s[0]) then
      var rest := Filter(s[1..], p);
      assert s == [s[0]] + s[1..];
      assert ([s[0]] + rest)[1..] == rest;
      [s[0]] + rest
    else
      assert s == [s[0]] + s[1..];
      Filter(s[1..], p)
  }

  /** `Filter` applied only when `apply` holds: the shape of an optional
      criterion that is skipped when left empty. */
  function FilterWhen<T(!new)>(apply: bool, s: seq<T>, p: T -> bool): (r: seq<T>)
    ensures IsSubsequence(r, s)
    ensures forall x :: x in r <==> x in s && (apply ==> p(x))
    ensures forall x :: multiset(r)[x] == if (apply ==> p(x)) then multiset(s)[x] else 0
  {
    if apply then Filter(s, p) else SubsequenceReflexive(s); s
  }

  /** Every sequence is a subsequence of itself. */
  lemma {:induction false} SubsequenceReflexive<T>(s: seq<T>)
    ensures IsSubsequence(s, s)
  {
    if s != [] {
      SubsequenceReflexive(s[1..]);
    }
  }

  /** A subsequence of a subsequence is a subsequence. */
  lemma {:induction false} SubsequenceTransitive<T>(a: seq<T>, b: seq<T>, c: seq<T>)
    requires IsSubsequence(a, b) && IsSubsequence(b, c)
    ensures IsSubsequence(a, c)
    decreases |c|
  {
    if a != [] {
      if b[0] == c[0] && IsSubsequence(b[1..], c[1..]) {
        if a[0] == b[0] && IsSubsequence(a[1..], b[1..]) {
          SubsequenceTransitive(a[1..], b[1..], c[1..]);
        } else {
          SubsequenceTransitive(a, b[1..], c[1..]);
        }
      } else {
        SubsequenceTransitive(a, b, c[1..]);
      }
    }
  }

  /** Filtering distributes over concatenation. */
  lemma {:induction false} FilterConcat<T(!new)>(a: seq<T>, b: seq<T>, p: T -> bool)
    ensures Filter(a + b, p) == Filter(a, p) + Filter(b, p)
    decreases |a|
  {
    if a == [] {
      assert a + b == b;
    } else {
      var ab := a + b;
      assert ab[0] == a[0] && ab[1..] == a[1..] + b;
      FilterConcat(a[1..], b, p);
      FilterStep(ab, a, Filter(b, p), p);
    }
  }

  /** The inductive step of `FilterConcat`, with the tails abstracted. */
  lemma FilterStep<T(!new)>(ab: seq<T>, a: seq<T>, fb: seq<T>, p: T -> bool)
    requires a != [] && ab != [] && ab[0] == a[0]
    requires Filter(ab[1..], p) == Filter(a[1..], p) + fb
    ensures Filter(ab, p) == Filter(a, p) + fb
  {
    FilterUnfold(ab, p);
    FilterUnfold(a, p);
    if p(a[0]) {
      ConsAssoc(a[0], Filter(a[1..], p), fb);
    }
  }

  lemma ConsAssoc<T>(x: T, l: seq<T>, m: seq<T>)
    ensures [x] + (l + m) == ([x] + l) + m
  {
  }

  /** One step of `Filter`, as a fact about a non-empty sequence. */
  lemma FilterUnfold<T(!new)>(s: seq<T>, p: T -> bool)
    requires s != []
    ensures Filter(s, p) == if p(s[0]) then [s[0]] + Filter(s[1..], p) else Filter(s[1..], p)
  {
  }

  /** Filtering with a predicate every element satisfies keeps everything. */
  lemma {:induction false} FilterKeepsAll<T(!new)>(s: seq<T>, p: T -> bool)
    requires forall i :: 0 <= i < |s| ==> p(s[i])
    ensures Filter(s, p) == s
  {
    if s != [] {
      FilterKeepsAll(s[1..], p);
    }
  }

  /** Filtering depends only on which elements the predicate accepts. */
  lemma {:induction false} FilterSamePredicate<T(!new)>(s: seq<T>, p: T -> bool, q: T -> bool)
    requires forall x :: p(x) == q(x)
    ensures Filter(s, p) == Filter(s, q)
  {
    if s != [] {
      FilterSamePredicate(s[1..], p, q);
    }
  }

  /** Two filters in a row are one filter with the conjunction. */
  lemma {:induction false} FilterFilter<T(!new)>(s: seq<T>, p: T -> bool, q: T -> bool, pq: T -> bool)
    requires forall x :: pq(x) == (p(x) && q(x))
    ensures Filter(Filter(s, p), q) == Filter(s, pq)
  {
    if s != [] {
      FilterFilter(s[1..], p, q, pq);
      if p(s[0]) {
        assert Filter(s, p) == [s[0]] + Filter(s[1..], p);
        assert ([s[0]] + Filter(s[1..], p))[1..] == Filter(s[1..], p);
      }
    }
  }

  /** Filtering with two complementary predicates splits `s` in two. */
  lemma {:induction false} FilterPartition<T(!new)>(s: seq<T>, p: T -> bool, q: T -> bool)
    requires forall x :: q(x) == !p(x)
    ensures |Filter(s, p)| + |Filter(s, q)| == |s|
  {
    if s != [] {
      FilterPartition(s[1..], p, q);
    }
  }

  /** Three mutually exclusive predicates select at most `|s|` elements in all. */
  lemma {:induction false} FilterDisjoint3<T(!new)>(s: seq<T>, p: T -> bool, q: T -> bool, r: T -> bool)
    requires forall x :: !(p(x) && q(x)) && !(p(x) && r(x)) && !(q(x) && r(x))
    ensures |Filter(s, p)| + |Filter(s, q)| + |Filter(s, r)| <= |s|
  {
    if s != [] {
      FilterDisjoint3(s[1..], p, q, r);
    }
  }

  /** The elements of a subsequence are elements of the sequence. */
  lemma {:induction false} SubsequenceMembers<T>(a: seq<T>, b: seq<T>, i: int)
    requires IsSubsequence(a, b)
    requires 0 <= i < |a|
    ensures a[i] in b
    decreases |b|
  {
    if a[0] == b[0] && IsSubsequence(a[1..], b[1..]) {
      if i > 0 {
        SubsequenceMembers(a[1..], b[1..], i - 1);
      }
    } else {
      SubsequenceMembers(a, b[1..], i);
    }
  }

  /** A subsequence of a sorted sequence is sorted. */
  lemma {:induction false} SubsequenceKeepsOrder<T>(a: seq<T>, b: seq<T>, key: T -> int)
    requires IsSubsequence(a, b)
    requires SortedBy(b, key)
    ensures SortedBy(a, key)
    decreases |b|
  {
    if a != [] {
      if a[0] == b[0] && IsSubsequence(a[1..], b[1..]) {
        SubsequenceKeepsOrder(a[1..], b[1..], key);
        forall j | 1 <= j < |a| ensures key(a[0]) <= key(a[j]) {
          SubsequenceMembers(a[1..], b[1..], j - 1);
          var k :| 0 <= k < |b[1..]| && b[1..][k] == a[j];
          assert b[k + 1] == a[j];
        }
        forall i, j | 0 <= i < j < |a| ensures key(a[i]) <= key(a[j]) {
          if i > 0 {
            assert a[i] == a[1..][i - 1] && a[j] == a[1..][j - 1];
          }
        }
      } else {
        SubsequenceKeepsOrder(a, b[1..], key);
      }
    }
  }

  /** `s` is in ascending order of `key`. */
  ghost predicate SortedBy<T>(s: seq<T>, key: T -> int) {
    forall i, j :: 0 <= i < j < |s| ==> key(s[i]) <= key(s[j])
  }

  /** Inserts `x` into the sorted `s` in front of the first element whose key
      is not smaller, so that earlier-inserted equal keys stay behind it. */
  function InsertByKey<T(!new)>(x: T, s: seq<T>, key: T -> int): (r: seq<T>)
    requires SortedBy(s, key)
    ensures SortedBy(r, key)
    ensures multiset(r) == multiset(s) + multiset{x}
    ensures |r| == |s| + 1
    ensures r[0] == x || (s != [] && r[0] == s[0])
  {
    if s == [] || key(x) <= key(s[0]) then
      ConsSorted(x, s, key);
      [x] + s
    else
      var rest := InsertByKey(x, s[1..], key);
      assert s == [s[0]] + s[1..];
      assert rest[0] == x || rest[0] == s[1];
      ConsSorted(s[0], rest, key);
      [s[0]] + rest
  }

  /** A sorted sequence stays sorted under a head no larger than its first
      element. */
  lemma ConsSorted<T>(h: T, t: seq<T>, key: T -> int)
    requires SortedBy(t, key)
    requires t != [] ==> key(h) <= key(t[0])
    ensures SortedBy([h] + t, key)
  {
    var ht := [h] + t;
    forall i, j | 0 <= i < j < |ht| ensures key(ht[i]) <= key(ht[j]) {
      if i == 0 {
        assert ht[j] == t[j - 1];
      } else {
        assert ht[i] == t[i - 1] && ht[j] == t[j - 1];
      }
    }
  }

  /** Insertion sort by `key`: ascending and stable. */
  function SortByKey<T(!new)>(s: seq<T>, key: T -> int): (r: seq<T>)
    ensures SortedBy(r, key)
    ensures multiset(r) == multiset(s)
    ensures |r| == |s|
  {
    if s == [] then []
    else
      assert s == [s[0]] + s[1..];
      InsertByKey(s[0], SortByKey(s[1..], key), key)
  }

  /** Membership survives sorting. */
  lemma SortKeepsMembers<T(!new)>(s: seq<T>, key: T -> int, x: T)
    ensures x in SortByKey(s, key) <==> x in s
  {
    var r := SortByKey(s, key);
    assert x in r <==> x in multiset(r);
    assert x in s <==> x in multiset(s);
  }
}

=== FILE: text.dfy ===
/** The JavaScript string operations the filters rely on: `toLowerCase`
    (ASCII letters only), `includes` (substring test) and the emptiness test
    on `trim()`.
 */
module Text {
  import opened Wrappers

  function LowerChar(c: char): char {
    if 'A' <= c <= 'Z' then (c as int + 32) as char else c
  }

  /** `s.toLowerCase()` restricted to ASCII letters. */
  function Lower(s: string): (r: string)
    ensures |r| == |s|
    ensures forall i :: 0 <= i < |s| ==> r[i] == LowerChar(s[i])
    ensures forall i :: 0 <= i < |r| ==> !('A' <= r[i] <= 'Z')
  {
    seq(|s|, i requires 0 <= i < |s| => LowerChar(s[i]))
  }

  predicate IsPrefix(p: string, s: string) {
    |p| <= |s| && s[..|p|] == p
  }

  /** `s.includes(t)`: `t` starts at some position of `s`. */
  predicate Contains(s: string, t: string)
    decreases |s|
  {
    IsPrefix(t, s) || (s != [] && Contains(s[1..], t))
  }

  /** `t` occurs in `s` starting at position `i`. */
  predicate OccursAt(s: string, t: string, i: int) {
    0 <= i <= |s| - |t| && s[i..i + |t|] == t
  }

  /** `Contains` agrees with the positional definition of a substring. */
  lemma {:induction false} ContainsIffOccursAt(s: string, t: string)
    ensures Contains(s, t) <==> exists i :: OccursAt(s, t, i)
  {
    if IsPrefix(t, s) {
      assert OccursAt(s, t, 0);
    } else if s == [] {
    } else {
      ContainsIffOccursAt(s[1..], t);
      if exists i :: OccursAt(s, t, i) {
        var i :| OccursAt(s, t, i);
        assert i != 0;
        assert s[1..][i - 1..i - 1 + |t|] == s[i..i + |t|];
        assert OccursAt(s[1..], t, i - 1);
      }
      if Contains(s[1..], t) {
        var j :| OccursAt(s[1..], t, j);
        assert s[j + 1..j + 1 + |t|] == s[1..][j..j + |t|];
        assert OccursAt(s, t, j + 1);
      }
    }
  }

  /** The empty string is contained in every string. */
  lemma ContainsEmpty(s: string)
    ensures Contains(s, "")
  {
    assert IsPrefix("", s);
  }

  /** The characters `String.prototype.trim` removes: white space and line
      terminators of ECMAScript. */
  predicate IsTrimmable(c: char) {
    || c in {'\t', '\n', '\U{000B}', '\U{000C}', '\r', ' ', '\U{00A0}', '\U{1680}'}
    || c in {'\U{2028}', '\U{2029}', '\U{202F}', '\U{205F}', '\U{3000}', '\U{FEFF}'}
    || '\U{2000}' <= c <= '\U{200A}'
  }

  function TrimStart(s: string): (r: string)
    ensures r != [] ==> !IsTrimmable(r[0])
    decreases |s|
  {
    if s != [] && IsTrimmable(s[0]) then TrimStart(s[1..]) else s
  }

  function TrimEnd(s: string): (r: string)
    decreases |s|
  {
    if s != [] && IsTrimmable(s[|s| - 1]) then TrimEnd(s[..|s| - 1]) else s
  }

  /** `s.trim()`. */
  function Trim(s: string): string {
    TrimEnd(TrimStart(s))
  }

  /** Every character of `s` is one `trim()` removes. */
  predicate IsBlank(s: string) {
    forall i :: 0 <= i < |s| ==> IsTrimmable(s[i])
  }

  lemma {:induction false} TrimStartEmptyIffBlank(s: string)
    ensures TrimStart(s) == [] <==> IsBlank(s)
  {
    if s != [] && IsTrimmable(s[0]) {
      TrimStartEmptyIffBlank(s[1..]);
      assert IsBlank(s) <==> IsBlank(s[1..]) by {
        if IsBlank(s[1..]) {
          forall i | 0 <= i < |s| ensures IsTrimmable(s[i]) {
            if i > 0 { assert s[i] == s[1..][i - 1]; }
          }
        }
      }
    }
  }

  lemma {:induction false} TrimEndOfNonBlankStart(s: string)
    requires s != [] && !IsTrimmable(s[0])
    ensures TrimEnd(s) != []
  {
    if IsTrimmable(s[|s| - 1]) {
      assert |s| > 1;
      TrimEndOfNonBlankStart(s[..|s| - 1]);
    }
  }

  /** `s.trim()` is falsy exactly for blank strings: the test the search
      boxes apply before filtering. */
  lemma TrimEmptyIffBlank(s: string)
    ensures Trim(s) == [] <==> IsBlank(s)
  {
    TrimStartEmptyIffBlank(s);
    var t := TrimStart(s);
    if t != [] {
      assert !IsTrimmable(t[0]);
      TrimEndOfNonBlankStart(t);
    }
  }

  predicate IsDigit(c: char) {
    '0' <= c <= '9'
  }

  /** `s || undefined` on an optional string: an empty string is passed on
      as absent. */
  function NonEmpty(s: Option<string>): (r: Option<string>)
    ensures r.Some? <==> s.Some? && s.value != ""
    ensures r.Some? ==> r == s
  {
    if s.Some? && s.value != "" then s else None
  }
}

=== FILE: user_events.dfy ===
/** The member's events page: the upcoming events it lists, the date and
    time-slot filters over them, the seat counter and the lookup of the
    member's own reservations.
 */
module UserEvents {
  import opened Wrappers
  import opened Instants
  import opened Sequences
  import opened EventModel
  import opened ReservationModel
  import opened EventService
  import opened ReservationService

  /** Events a member may see: neither cancelled nor completed. Full events
      stay visible; only registration is closed for them. */
  predicate IsListed(e: Event) {
    e.status != EventStatus.Cancelled && e.status != Completed
  }

  /** The page's event list: the event query from the start of today, then
      cancelled and completed events dropped. */
  function LoadEvents(all: seq<Event>, now: Instant): (r: seq<Event>)
    ensures SortedBy(r, DateOf)
    ensures forall e :: e in r <==> e in all && ShownFrom(now, e)
    ensures forall e :: multiset(r)[e] == if ShownFrom(now, e) then multiset(all)[e] else 0
  {
    var o := EventQueryOptions(Some(StartOfDay(now)), None, None, None, None);
    var fetched := GetEvents(all, o);
    var r := Filter(fetched, IsListed);
    assert SortedBy(r, DateOf) by {
      SubsequenceKeepsOrder(r, fetched, DateOf);
    }
    assert forall e :: multiset(fetched)[e] == if e.date >= StartOfDay(now) then multiset(all)[e] else 0 by {
      assert forall e :: MatchesQuery(e, o) <==> e.date >= StartOfDay(now);
    }
    ListedMembers(all, now, fetched, r);
    r
  }

  /** The events the page lists when opened at `now`: scheduled or full, on
      today's calendar day or later. */
  predicate ShownFrom(now: Instant, e: Event) {
    StartOfDay(e.date) >= StartOfDay(now) && (e.status == Scheduled || e.status == Full)
  }

  /** The listed events, from the query's and the filter's multiplicities. */
  lemma ListedMembers(all: seq<Event>, now: Instant, fetched: seq<Event>, r: seq<Event>)
    requires forall e :: multiset(fetched)[e] == if e.date >= StartOfDay(now) then multiset(all)[e] else 0
    requires forall e :: multiset(r)[e] == if IsListed(e) then multiset(fetched)[e] else 0
    ensures forall e :: multiset(r)[e] == if ShownFrom(now, e) then multiset(all)[e] else 0
    ensures forall e :: e in r <==> e in all && ShownFrom(now, e)
  {
    forall e: Event ensures multiset(r)[e] == if ShownFrom(now, e) then multiset(all)[e] else 0 {
      OnOrAfterStartOfDay(e.date, now);
    }
    forall e: Event ensures e in r <==> e in all && ShownFrom(now, e) {
      assert e in r <==> multiset(r)[e] > 0;
      assert e in all <==> multiset(all)[e] > 0;
    }
  }

  /** The filter form. An absent date leaves that side open; a time slot of
      "" or "all" accepts both slots. */
  datatype EventFilters = EventFilters(startDate: Option<Instant>, endDate: Option<Instant>, timeSlot: string)

  /** The event falls on or after the calendar day of the start date. */
  predicate FromDay(start: Option<Instant>, e: Event) {
    start.Some? ==> StartOfDay(e.date) >= StartOfDay(start.value)
  }

  /** The event falls on or before the calendar day of the end date. */
  predicate UntilDay(end: Option<Instant>, e: Event) {
    end.Some? ==> StartOfDay(e.date) <= StartOfDay(end.value)
  }

  predicate SlotMatches(slot: string, e: Event) {
    slot == "" || slot == "all" || TimeSlotName(e.timeSlot) == slot
  }

  /** The two date bounds of the form: the start moved to the beginning of
      its day, the end to the last millisecond of its day, so that both act
      on whole calendar days. */
  function ByDays(events: seq<Event>, startDate: Option<Instant>, endDate: Option<Instant>): (r: seq<Event>)
    ensures IsSubsequence(r, events)
    ensures forall e :: e in r <==> e in events && FromDay(startDate, e) && UntilDay(endDate, e)
    ensures forall e :: multiset(r)[e] == if FromDay(startDate, e) && UntilDay(endDate, e) then multiset(events)[e] else 0
  {
    var from := StartOfDay(startDate.GetOr(0));
    var until := EndOfDay(endDate.GetOr(0));
    var s1 := FilterWhen(startDate.Some?, events, (e: Event) => e.date >= from);
    var s2 := FilterWhen(endDate.Some?, s1, (e: Event) => e.date <= until);
    SubsequenceTransitive(s2, s1, events);
    DayBounds(events, s1, s2, startDate, endDate);
    s2
  }

  /** Instant bounds at the edges of days are day bounds. */
  lemma DayBounds(events: seq<Event>, s1: seq<Event>, r: seq<Event>, startDate: Option<Instant>, endDate: Option<Instant>)
    requires forall e ::
               multiset(s1)[e] == if (startDate.Some? ==> e.date >= StartOfDay(startDate.GetOr(0))) then multiset(events)[e] else 0
    requires forall e ::
               multiset(r)[e] == if (endDate.Some? ==> e.date <= EndOfDay(endDate.GetOr(0))) then multiset(s1)[e] else 0
    ensures forall e :: multiset(r)[e] == if FromDay(startDate, e) && UntilDay(endDate, e) then multiset(events)[e] else 0
    ensures forall e :: e in r <==> e in events && FromDay(startDate, e) && UntilDay(endDate, e)
  {
    forall e: Event ensures e.date >= StartOfDay(startDate.GetOr(0)) <==> StartOfDay(e.date) >= StartOfDay(startDate.GetOr(0)) {
      OnOrAfterStartOfDay(e.date, startDate.GetOr(0));
    }
    forall e: Event ensures e.date <= EndOfDay(endDate.GetOr(0)) <==> StartOfDay(e.date) <= StartOfDay(endDate.GetOr(0)) {
      OnOrBeforeEndOfDay(e.date, endDate.GetOr(0));
    }
    forall e: Event ensures e in r <==> e in events && FromDay(startDate, e) && UntilDay(endDate, e) {
      assert e in r <==> multiset(r)[e] > 0;
      assert e in events <==> multiset(events)[e] > 0;
    }
  }

  /** The form applied to the loaded list: the date bounds, then the slot
      compared by its stored name, then events that have already begun
      dropped. The loaded order is kept. */
  function ApplyFilters(events: seq<Event>, f: EventFilters, now: Instant): (r: seq<Event>)
    ensures IsSubsequence(r, events)
    ensures SortedBy(events, DateOf) ==> SortedBy(r, DateOf)
    ensures forall e :: e in r <==> e in events && PassesForm(f, now, e)
    ensures forall e :: multiset(r)[e] == if PassesForm(f, now, e) then multiset(events)[e] else 0
  {
    var slot := f.timeSlot;
    var s2 := ByDays(events, f.startDate, f.endDate);
    var s3 := FilterWhen(slot != "" && slot != "all", s2, (e: Event) => TimeSlotName(e.timeSlot) == slot);
    var s4 := Filter(s3, (e: Event) => e.date >= now);
    SubsequenceTransitive(s3, s2, events);
    SubsequenceTransitive(s4, s3, events);
    assert SortedBy(events, DateOf) ==> SortedBy(s4, DateOf) by {
      if SortedBy(events, DateOf) {
        SubsequenceKeepsOrder(s4, events, DateOf);
      }
    }
    StageMembers(events, s2, s3, s4, f, now);
    s4
  }

  /** The form's reading of one event: within the days, of the slot, and
      not yet begun. */
  predicate PassesForm(f: EventFilters, now: Instant, e: Event) {
    && FromDay(f.startDate, e)
    && UntilDay(f.endDate, e)
    && SlotMatches(f.timeSlot, e)
    && e.date >= now
  }

  /** Chains the multiplicities of the three stages of `ApplyFilters`. */
  lemma StageMembers(events: seq<Event>, s2: seq<Event>, s3: seq<Event>, s4: seq<Event>, f: EventFilters, now: Instant)
    requires forall e :: multiset(s2)[e] == if FromDay(f.startDate, e) && UntilDay(f.endDate, e) then multiset(events)[e] else 0
    requires forall e ::
               multiset(s3)[e] == if (f.timeSlot != "" && f.timeSlot != "all" ==> TimeSlotName(e.timeSlot) == f.timeSlot) then multiset(s2)[e] else 0
    requires forall e :: multiset(s4)[e] == if e.date >= now then multiset(s3)[e] else 0
    ensures forall e :: multiset(s4)[e] == if PassesForm(f, now, e) then multiset(events)[e] else 0
    ensures forall e :: e in s4 <==> e in events && PassesForm(f, now, e)
  {
    forall e: Event ensures e in s4 <==> e in events && PassesForm(f, now, e) {
      assert e in s4 <==> multiset(s4)[e] > 0;
      assert e in events <==> multiset(events)[e] > 0;
    }
  }

  /** Seats left. Zero or less exactly when the event is full, and never
      negative while the count stays within capacity. */
  function AvailableSlots(e: Event): (n: int)
    ensures n <= 0 <==> IsEventFull(e)
    ensures e.registeredCount <= e.capacity ==> n >= 0
  {
    e.capacity - e.registeredCount
  }

  /** The member's active reservations and the set of events they cover. */
  datatype ReservationsView = ReservationsView(reservations: seq<Reservation>, reservedEventIds: set<string>)

  /** The ids of the events the listed reservations belong to. */
  function ReservedEventIds(rs: seq<Reservation>): set<string> {
    set r | r in rs :: r.eventId
  }

  /** Loads the signed-in member's confirmed reservations, newest first. With
      nobody signed in nothing is loaded. An event counts as registered
      exactly when the member holds a confirmed reservation for it. */
  function LoadUserReservations(all: seq<Reservation>, currentUser: Option<string>): (r: Option<ReservationsView>)
    ensures r.None? <==> currentUser.None?
    ensures r.Some? ==> forall x :: x in r.value.reservations <==>
      x in all && x.userId == currentUser.value && x.status == Confirmed
    ensures r.Some? ==> forall x ::
                          multiset(r.value.reservations)[x]
                          == if x.userId == currentUser.value && x.status == Confirmed then multiset(all)[x] else 0
    ensures r.Some? ==> forall i, j :: 0 <= i < j < |r.value.reservations| ==>
      r.value.reservations[i].createdAt >= r.value.reservations[j].createdAt
    ensures r.Some? ==> forall id :: id in r.value.reservedEventIds <==>
      exists x :: x in all && x.userId == currentUser.value && x.status == Confirmed && x.eventId == id
  {
    if currentUser.None? then None
    else
      var rs := GetUserReservations(all, currentUser.value, true);
      Some(ReservationsView(rs, ReservedEventIds(rs)))
  }

  predicate IsUserRegistered(view: ReservationsView, e: Event) {
    e.id in view.reservedEventIds
  }

  /** The first listed reservation for the event, if any. It is found
      exactly when the event's id is among the reserved ids. */
  method GetUserReservation(rs: seq<Reservation>, e: Event) returns (found: Option<Reservation>)
    ensures found.Some? <==> e.id in ReservedEventIds(rs)
    ensures found.Some? ==> exists i :: 0 <= i < |rs| && rs[i] == found.value && rs[i].eventId == e.id
                                        && forall j :: 0 <= j < i ==> rs[j].eventId != e.id
  {
    var i := 0;
    while i < |rs|
      invariant 0 <= i <= |rs|
      invariant forall j :: 0 <= j < i ==> rs[j].eventId != e.id
    {
      if rs[i].eventId == e.id {
        assert rs[i] in rs;
        return Some(rs[i]);
      }
      i := i + 1;
    }
    found := None;
    assert forall r :: r in rs ==> r.eventId != e.id;
  }
}

=== FILE: user_management.dfy ===
/** The administrator's user list: newest accounts first, filtered by role,
    by the disabled flag and by a search over email, name and phone, with a
    count of users per role.
 */
module UserManagement {
  import opened Sequences
  import opened Text
  import opened UserModel

  function NewestUserFirst(u: User): int {
    -u.createdAt
  }

  /** The loaded list, ordered by creation time, newest first. Nothing is
      added or lost. */
  function LoadUsers(users: seq<User>): (r: seq<User>)
    ensures multiset(r) == multiset(users)
    ensures forall i, j :: 0 <= i < j < |r| ==> r[i].createdAt >= r[j].createdAt
  {
    var r := SortByKey(users, NewestUserFirst);
    assert forall i, j :: 0 <= i < j < |r| ==> NewestUserFirst(r[i]) <= NewestUserFirst(r[j]);
    r
  }

  /** The role drop-down holds "all" or a role's stored name. */
  predicate MatchesRole(roleFilter: string, u: User) {
    roleFilter == "all" || RoleName(u.role) == roleFilter
  }

  /** An empty term matches everyone. Any other term, white space
      included, must occur after lower-casing. */
  predicate MatchesSearch(term: string, u: User) {
    term == "" || UserSearchHit(Lower(term), u)
  }

  /** The screen's per-user test, with its early exits: a role mismatch
      and a hidden disabled account reject before the search is looked at. */
  function KeepUser(roleFilter: string, showDisabled: bool, searchTerm: string): User -> bool {
    (u: User) =>
      if roleFilter != "all" && RoleName(u.role) != roleFilter then false
      else if !showDisabled && u.disabled then false
      else if searchTerm != "" then
        var searchLower := Lower(searchTerm);
        || Contains(Lower(u.email), searchLower)
        || (u.displayName.Some? && Contains(Lower(u.displayName.value), searchLower))
        || (u.phone.Some? && Contains(Lower(u.phone.value), searchLower))
      else true
  }

  /** The three controls read declaratively. */
  predicate Shown(roleFilter: string, showDisabled: bool, searchTerm: string, u: User) {
    MatchesRole(roleFilter, u) && (showDisabled || !u.disabled) && MatchesSearch(searchTerm, u)
  }

  /** The list shown: the users every control accepts, in the loaded order.
      With disabled users hidden, none is shown. */
  function ApplyFilters(users: seq<User>, roleFilter: string, showDisabled: bool, searchTerm: string)
    : (r: seq<User>)
    ensures IsSubsequence(r, users)
    ensures forall u :: u in r <==> u in users && Shown(roleFilter, showDisabled, searchTerm, u)
    ensures forall u :: multiset(r)[u] == if Shown(roleFilter, showDisabled, searchTerm, u) then multiset(users)[u] else 0
  {
    Filter(users, KeepUser(roleFilter, showDisabled, searchTerm))
  }

  /** The screen's initial controls show every user in the loaded order. */
  lemma DefaultFiltersShowAll(users: seq<User>)
    ensures ApplyFilters(users, "all", true, "") == users
  {
    FilterKeepsAll(users, KeepUser("all", true, ""));
  }

  function HasRole(role: Role): User -> bool {
    (u: User) => u.role == role
  }

  /** The number of users with the role: zero exactly when nobody has it. */
  function CountByRole(users: seq<User>, role: Role): (n: nat)
    ensures n <= |users|
    ensures n == 0 <==> forall u :: u in users ==> u.role != role
  {
    var holders := Filter(users, HasRole(role));
    assert holders != [] ==> holders[0] in holders;
    |holders|
  }

  /** Nobody holds a role in an empty list. */
  lemma CountByRoleOfNobody(role: Role)
    ensures CountByRole([], role) == 0
  {
  }

  /** One more user adds one to the count of their own role and nothing to
      the other. With `CountByRoleOfNobody` this fixes the count as the
      number of users holding the role. */
  lemma CountByRoleAppend(users: seq<User>, u: User, role: Role)
    ensures CountByRole(users + [u], role) == CountByRole(users, role) + (if u.role == role then 1 else 0)
  {
    FilterConcat(users, [u], HasRole(role));
    FilterUnfold([u], HasRole(role));
    assert [u][1..] == [];
  }

  /** Every user is counted under exactly one role. */
  lemma RoleCountsAddUp(users: seq<User>)
    ensures CountByRole(users, Admin) + CountByRole(users, Guest) == |users|
  {
    FilterPartition(users, HasRole(Admin), HasRole(Guest));
  }
}

=== FILE: user_model.dfy ===
/** The user document as the admin screens read it. Besides the key, email,
    role and timestamps, the screens use an optional display name and phone
    and a disabled flag, which the provisioning endpoint writes.
 */
module UserModel {
  import opened Wrappers
  import opened Instants
  import opened Text

  /** The only two roles. */
  datatype Role = Admin | Guest

  /** The stored spelling of a role. */
  function RoleName(r: Role): string {
    match r
    case Admin => "admin"
    case Guest => "guest"
  }

  datatype User = User(
    uid: string,
    email: string,
    role: Role,
    displayName: Option<string>,
    phone: Option<string>,
    disabled: bool,
    createdAt: Instant,
    updatedAt: Instant)

  /** `t` (already lower-cased) occurs, ignoring case, in the user's email,
      display name or phone number. Absent fields match nothing. */
  predicate UserSearchHit(t: string, u: User) {
    || Contains(Lower(u.email), t)
    || (u.displayName.Some? && Contains(Lower(u.displayName.value), t))
    || (u.phone.Some? && Contains(Lower(u.phone.value), t))
  }
}

=== FILE: wrappers.dfy ===
/** Failure-carrying shapes used throughout the model.
    - `Option<T>` stands for a value that may be absent (an optional document
      field, a `null` snapshot, an `undefined` lookup result).
    - `Result<T, E>` stands for an operation that either completes with a
      value or is rejected with an error (a thrown `Error` or `HttpsError`).
 */
module Wrappers {

  datatype Option<+T> = None | Some(value: T) {

    /** The carried value, or `default` when absent: the `x || default`
        idiom of the application, for values whose only falsy form is absence. */
    function GetOr(default: T): T {
      match this
      case Some(v) => v
      case None => default
    }
  }

  datatype Result<+T, +E> = Ok(value: T) | Err(error: E)
}
